=== FILE: README.md ===
# Hero section backgrounds and typewriter, modelled in Dafny

A portfolio site opens with a hero section. Behind it runs one of three canvas
backgrounds. In front of it sits a typewriter headline that types and deletes
a fixed list of words. The backgrounds mix two kinds of code: state that
changes from frame to frame, and calls that draw on the canvas. This project
models the state part and the typewriter, with exact `real` and `int`
arithmetic:

- `Common` (`common.dfy`) holds the shared pieces:
  - `Math.random()` as a stream of draws in [0, 1), consumed in the order
    JavaScript evaluates object-literal fields;
  - `Math.sin` and `Math.cos` as functions known only to return values in
    [-1, 1];
  - the palette pick and the edge-wrapping rule;
  - the sine-modulated opacity factors;
  - the particle step the two pulsing backgrounds share.
- `HeroBackground` (`hero_background.dfy`) is the neon background. It has
  particles that the cursor pulls, a square grid, drifting 3-D shapes, and
  waving ribbons.
- `AnimatedBackground` (`animated_background.dfy`) has turning, drifting
  outlined polygons and pulsing particles.
- `HeroBackgroundSimple` (`hero_background_simple.dfy`) has pulsing neon dots
  over a grid of diagonal lines. Its clock is fractional.
- `Typewriter` (`typewriter.dfy`) is the transition relation of the headline
  effect.

In each background:

- Each factory is a function from the canvas size and a random stream to the
  new collection.
- A frame is a pure function on a `Scene` record that holds every collection
  the component keeps between frames.
- The opacity each draw call computes is a function of the entity and of the
  sine samples.

The proofs cover the following:

- Every factory makes the fixed number of entities with every field in its
  documented range.
- A frame keeps every entity inside its band. Particles stay on the closed
  canvas. Shapes stay within a 100-unit margin. Ribbon points stay within
  their amplitude.
- Every drawn opacity stays within the bounds stated in the rows below.
- The typewriter keeps its text a prefix of the current word, exactly one of
  its branches always applies, each word takes exactly `2 * |word| + 2`
  transitions, and the whole headline repeats every 96 transitions.

Two details of the code shape what the model proves:

- **Particles rest on the closed canvas.** A particle can rest exactly on the
  right or bottom edge. A coordinate below 0 is sent to `width`, and only a
  coordinate above `width` is sent to 0 (`HeroBackground.tsx:174-177`; the
  other two backgrounds wrap the same way). So the model proves the closed
  [0, W] x [0, H].
- **Simplified-background opacity can exceed 1.** The simplified background's
  base opacity `Math.random() * 0.9 + 0.3` reaches up to 1.2
  (`HeroBackgroundSimple.tsx:25`). A pulse at its crest then draws the
  particle with an opacity above 1. `HeroBackgroundSimple.AlphaAboveOne` and
  `HeroBackgroundSimple.OpacityCanExceedOne` state this.

## Model

| member | source | states |
|---|---|---|
| Common.Pick | src/components/HeroBackground.tsx:59 | `Math.floor(r * n)` for a draw r in [0, 1) is a valid index below n, and is the integer part of `r * n` |
| Common.NeonColor | src/components/HeroBackground.tsx:57-60 | `getRandomColor` always returns one of the five neon colours |
| Common.Scale | src/components/HeroBackground.tsx:66-67 | a draw times a non-negative extent lands in [0, extent], and strictly below it when the extent is positive |
| Common.Phase | src/components/HeroBackground.tsx:88 | `Math.random() * Math.PI * 2` is a phase in [0, 2π) |
| Common.Oscillate | src/components/HeroBackground.tsx:345 | a sine sample times an amplitude displaces by at most the amplitude's magnitude, in either direction |
| Common.Modulate | src/components/AnimatedBackground.tsx:175 | `sin * depth + base` lies in [base - depth, base + depth] |
| Common.Wrap | src/components/HeroBackground.tsx:174-177 | the two-test wrap puts any coordinate in the closed band [-margin, limit + margin]; it leaves an in-band coordinate alone; it sends one past the low edge to the high edge and one past the high edge to the low edge |
| Common.WrapIdempotent | src/components/HeroBackground.tsx:174-177 | wrapping twice is wrapping once |
| Common.Glide | src/components/AnimatedBackground.tsx:164-172 | the shared particle step lands on the closed canvas, advances the pulse by exactly the step, changes nothing but position and pulse, and moves by exactly the velocity when that stays on the canvas; a particle that would leave the canvas reappears at the opposite edge (below 0 to W or H, beyond W or H to 0) |
| Common.GlidesPulse | src/components/AnimatedBackground.tsx:164-172 | over n steps a pulsing particle's phase grows by exactly n pulse steps, nothing but position and phase changes, and once it has moved it rests on the closed canvas |
| Common.Attenuate | src/components/HeroBackground.tsx:180-184 | a non-negative opacity times a factor `sin * depth + base` with `base + depth <= 1` stays between `(base - depth)` times the opacity and the opacity itself |
| Common.PulseOpacity | src/components/AnimatedBackground.tsx:175-178 | the pulse factor `sin * 0.3 + 0.7` lies in [0.4, 1], so the drawn opacity is between 0.4 times the base opacity and the base opacity |
| HeroBackground.SpawnParticle | src/components/HeroBackground.tsx:65-74 | one new particle has its position on the canvas, velocity in [-0.25, 0.25), size in [1, 4), a neon colour, base opacity in [0.2, 1) and life in [0, 1000) |
| HeroBackground.CreateParticles | src/components/HeroBackground.tsx:62-77 | `createParticles` makes exactly 100 particles, each within those ranges |
| HeroBackground.Pull | src/components/HeroBackground.tsx:163 | within the 150-unit reach the force factor lies in (0, 1], and equals 1 exactly at distance 0 |
| HeroBackground.CursorDistance | src/components/HeroBackground.tsx:158-160 | the cursor distance is never negative |
| HeroBackground.Attract | src/components/HeroBackground.tsx:158-166 | the cursor changes only the velocity; it changes it exactly when the particle is within reach and not under the cursor; each velocity change points toward the cursor along its axis |
| HeroBackground.PullTowards | src/components/HeroBackground.tsx:164-165 | one axis of the pull, `d * force * 0.0001` with force in (0, 1], has the sign of the offset d, is zero exactly when d is, and is at most 0.0001 times d in size |
| HeroBackground.AttractIsGentle | src/components/HeroBackground.tsx:162-166 | the pull is gentle: each velocity component changes by at most 0.0001 times the offset to the cursor on that axis, so a particle drifts toward the cursor rather than jumping to it |
| HeroBackground.ParticleTick | src/components/HeroBackground.tsx:155-177 | after one tick the particle is on the closed canvas, its life grew by exactly 1, and size, colour and base opacity are unchanged; its velocity is the attracted one, and it moved by exactly that velocity when that stays on the canvas; a particle that would leave the canvas reappears at the opposite edge |
| HeroBackground.ParticleAges | src/components/HeroBackground.tsx:155-177 | over n ticks under a fixed cursor a particle's life grows by exactly n, size, colour and base opacity stay, and once it has moved it rests on the closed canvas |
| HeroBackground.TickKeepsLive | src/components/HeroBackground.tsx:155-177 | a particle on the canvas with its creation ranges keeps them through a tick |
| HeroBackground.ParticleOpacity | src/components/HeroBackground.tsx:180-184 | the pulse factor `sin * 0.5 + 0.5` keeps the drawn opacity between 0 and the base opacity |
| HeroBackground.LineCount | src/components/HeroBackground.tsx:83 | the loop makes exactly the passes whose coordinate is below the extent, in both directions of the if-and-only-if; this is `ceil(extent / 80)` |
| HeroBackground.SpawnGridLine | src/components/HeroBackground.tsx:84-89 | one grid line has its orientation, its position on the 80-unit lattice, opacity 0.1 and a phase in [0, 2π) |
| HeroBackground.Lines | src/components/HeroBackground.tsx:83-90 | one loop of `createGridLines` makes `ceil(extent / 80)` lines of one orientation, the k-th at 80k below the extent, each with opacity 0.1 and a phase in [0, 2π) |
| HeroBackground.GridLines | src/components/HeroBackground.tsx:79-102 | `createGridLines` yields the vertical lines first and then the horizontal ones; a line is vertical exactly when it comes before the first horizontal one; each line sits at 80 times its index among the lines of its own orientation, below its axis' extent, and every opacity is 0.1 |
| HeroBackground.CreateGridLines | src/components/HeroBackground.tsx:79-102 | the two counting loops stepping by 80 build exactly the lines `GridLines` describes |
| HeroBackground.GridLineOpacity | src/components/HeroBackground.tsx:201-202 | the wave factor keeps a grid line's drawn opacity between 0 and its base opacity |
| HeroBackground.SpawnShape | src/components/HeroBackground.tsx:109-121 | one new shape is on the canvas, with size in [30, 90), rotation 0, rotation speed in [-0.01, 0.01), opacity 0.3 and drift in [-0.15, 0.15) per axis |
| HeroBackground.CreateShapes | src/components/HeroBackground.tsx:104-125 | `createShapes` makes exactly six shapes within those ranges |
| HeroBackground.ShapeTick | src/components/HeroBackground.tsx:305-313 | after one tick the shape lies in [-100, W + 100] x [-100, H + 100], its rotation grew by exactly its speed, and kind, size, speed, opacity and drift are unchanged; it moved by exactly its drift when that stays in the band, and a shape that would leave the band reappears at its opposite margin (below -100 to W + 100 or H + 100, beyond those to -100) |
| HeroBackground.ShapeTurns | src/components/HeroBackground.tsx:305-313 | over n ticks a shape turns by exactly n times its rotation speed, nothing but position and angle changes, and once it has moved it lies in the margin band |
| HeroBackground.RibbonPoints | src/components/HeroBackground.tsx:131-141 | a ribbon gets 20 points starting at x = 0, evenly spaced by width / 20 and below the width; each rests within 100 of half the height, with its y at its rest height |
| HeroBackground.SegmentX | src/components/HeroBackground.tsx:137 | `(j / 20) * width` lies in [0, width), or is 0 on a canvas of width 0 |
| HeroBackground.RibbonPointsIncrease | src/components/HeroBackground.tsx:137 | on a canvas of positive width the points' x strictly increases along the ribbon |
| HeroBackground.SpawnRibbon | src/components/HeroBackground.tsx:143-149 | one ribbon has 20 points, a neon colour, opacity 0.15, a phase in [0, 2π) and an amplitude in [50, 100) |
| HeroBackground.CreateRibbons | src/components/HeroBackground.tsx:127-153 | `createRibbons` makes exactly three ribbons of 20 points each, each with a neon colour, opacity 0.15, a phase in [0, 2π) and an amplitude in [50, 100), every point within its ribbon's amplitude |
| HeroBackground.RibbonTick | src/components/HeroBackground.tsx:340-345 | one tick adds exactly 0.02 to the wave phase; every point keeps its x and rest height and lies within the amplitude of its rest height; colour, opacity and amplitude are unchanged |
| HeroBackground.RibbonStaysInBand | src/components/HeroBackground.tsx:340-345 | after n ticks the phase has grown by 0.02 n, x and rest heights are untouched, and every point lies within the amplitude |
| HeroBackground.Resize | src/components/HeroBackground.tsx:396-408 | a resize gives the canvas the new size, keeps the clock and cursor, and replaces every collection with a fresh one: 100 particles and 6 shapes each with every field in its creation range, the full lattice of grid lines (vertical first, each at 80 times its index within its orientation, opacity 0.1), and 3 ribbons of 20 points with a neon colour, opacity 0.15, a phase in [0, 2π) and an amplitude in [50, 100); the scene satisfies the frame invariant |
| HeroBackground.ResizeDiscardsEntities | src/components/HeroBackground.tsx:403-407 | no entity survives a resize: two scenes resized alike differ only in clock and cursor |
| HeroBackground.Frame | src/components/HeroBackground.tsx:426-437 | a frame advances the clock by one, keeps the canvas, cursor and grid lines, advances every ribbon, shape and particle exactly once by its own update, each in its own slot, and preserves the frame invariant |
| HeroBackground.FramesKeepValid | src/components/HeroBackground.tsx:418-439 | any number of frames keeps the invariant and the canvas size and advances the clock once per frame |
| HeroBackground.FramesTickEachEntity | src/components/HeroBackground.tsx:418-439 | n frames keep the canvas, cursor, grid lines and entity counts, and put in every slot exactly the n-fold tick of the ribbon, shape or particle that started there, so frames never mix entities |
| HeroBackground.ValidOpacity | src/components/HeroBackground.tsx:180-184 | in a scene satisfying the invariant every particle is drawn with opacity in [0, 1] |
| HeroBackground.OpacityStaysInUnitInterval | src/components/HeroBackground.tsx:396-439 | after a resize and any number of frames every particle is drawn with opacity in [0, 1] |
| AnimatedBackground.SpawnParticle | src/components/AnimatedBackground.tsx:45-54 | one new particle is on the canvas, with velocity in [-0.4, 0.4), size in [2, 6), a primary colour, base opacity in [0.2, 1) and pulse phase in [0, 2π) |
| AnimatedBackground.CreateParticles | src/components/AnimatedBackground.tsx:42-56 | `createParticles` replaces the collection with exactly 80 particles within those ranges |
| AnimatedBackground.ParticleTick | src/components/AnimatedBackground.tsx:164-172 | after a tick the particle is on the closed canvas, its pulse grew by exactly 0.03, and velocity, size, colour and opacity are unchanged; a particle that would leave the canvas reappears at the opposite edge, otherwise it moved by exactly its velocity |
| AnimatedBackground.SpawnShape | src/components/AnimatedBackground.tsx:62-71 | one new shape is on the canvas, with size in [20, 60), rotation 0, speed in [-0.01, 0.01), an accent colour and opacity 0.1 |
| AnimatedBackground.CreateShapes | src/components/AnimatedBackground.tsx:58-73 | `createGeometricShapes` replaces the collection with exactly twelve shapes within those ranges |
| AnimatedBackground.Drift | src/components/AnimatedBackground.tsx:137-138 | the drift moves each axis by at most 0.3 and changes nothing but the position |
| AnimatedBackground.ShapeTick | src/components/AnimatedBackground.tsx:134-144 | after a tick the shape lies in [-100, W + 100] x [-100, H + 100], its rotation grew by exactly its speed, and nothing but position and rotation changed; the position is the drifted one when that stays in the band, and a drifted shape outside the band reappears at its opposite margin (below -100 to W + 100 or H + 100, beyond those to -100) |
| AnimatedBackground.ShapeTurns | src/components/AnimatedBackground.tsx:134-144 | over the steps at n successive clock readings a shape turns by exactly n times its rotation speed, nothing but position and angle changes, and once it has moved it lies in the margin band |
| AnimatedBackground.ShapeOpacity | src/components/AnimatedBackground.tsx:128 | a shape is outlined with opacity within 0.05 of its base opacity |
| AnimatedBackground.Resize | src/components/AnimatedBackground.tsx:214-222 | a resize gives the canvas the new size, keeps the clock, and replaces the collections with 80 freshly spawned particles and 12 freshly spawned shapes (each field in its creation range, every shape unturned at opacity 0.1), so the scene satisfies the frame invariant |
| AnimatedBackground.ResizeDiscardsEntities | src/components/AnimatedBackground.tsx:218-221 | no entity survives a resize: two scenes resized alike differ only in their clocks |
| AnimatedBackground.Frame | src/components/AnimatedBackground.tsx:120-172 | a frame advances the clock by one, keeps the canvas, advances every shape (at the new clock) and every particle exactly once by its own update, each in its own slot, and preserves the frame invariant |
| AnimatedBackground.FramesKeepValid | src/components/AnimatedBackground.tsx:113-212 | any number of frames keeps the invariant and the canvas size and advances the clock once per frame |
| AnimatedBackground.FramesTickShapes | src/components/AnimatedBackground.tsx:120-150 | n frames keep the canvas and shape count, advance the clock by n, and put in every slot exactly the steps at clock readings time + 1 to time + n of the shape that started there |
| AnimatedBackground.FramesTickParticles | src/components/AnimatedBackground.tsx:163-172 | n frames keep the canvas and particle count and put in every slot exactly n glides of the particle that started there |
| AnimatedBackground.ValidOpacities | src/components/AnimatedBackground.tsx:126-178 | in a valid scene every shape is outlined with opacity in [0.05, 0.15] at any clock reading, and every particle is drawn with opacity in [0.08, 1), never above its base opacity |
| AnimatedBackground.OpacitiesAfterFrames | src/components/AnimatedBackground.tsx:113-222 | after a resize and any number of frames those opacity bounds hold, with each shape bounded at the clock the next frame outlines it with |
| HeroBackgroundSimple.SpawnParticle | src/components/HeroBackgroundSimple.tsx:18-27 | one new particle is on the canvas, with velocity in [-0.4, 0.4), size in [2, 6), a neon colour, base opacity in [0.3, 1.2) and phase in [0, 2π) |
| HeroBackgroundSimple.CreateParticles | src/components/HeroBackgroundSimple.tsx:15-29 | `createParticles` replaces the collection with exactly 60 particles within those ranges |
| HeroBackgroundSimple.AlphaAboveOne | src/components/HeroBackgroundSimple.tsx:25 | a particle's base opacity exceeds 1 exactly when its opacity draw exceeds 7/9 |
| HeroBackgroundSimple.OpacityCanExceedOne | src/components/HeroBackgroundSimple.tsx:119-123 | such a particle, at the crest of its pulse, is drawn with an opacity above 1 |
| HeroBackgroundSimple.ParticleTick | src/components/HeroBackgroundSimple.tsx:106-116 | after a tick the particle is on the closed canvas, its pulse grew by exactly 0.05, and velocity, size, colour and opacity are unchanged; a particle that would leave the canvas reappears at the opposite edge, otherwise it moved by exactly its velocity |
| HeroBackgroundSimple.Diagonal | src/components/HeroBackgroundSimple.tsx:34 | the canvas diagonal is never negative |
| HeroBackgroundSimple.DiagonalCount | src/components/HeroBackgroundSimple.tsx:37 | a loop makes exactly the passes whose offset `-diagonal + 120k` is below the diagonal, in both directions of the if-and-only-if |
| HeroBackgroundSimple.SpawnLine | src/components/HeroBackgroundSimple.tsx:38-44 | one grid line has its direction and offset, opacity 0.08, an animation phase in [0, 2π) and a flow offset in [0, 1000) |
| HeroBackgroundSimple.Lines | src/components/HeroBackgroundSimple.tsx:37-45 | one loop makes exactly that many lines of its direction, the k-th at offset `-diagonal + 120k` in [-diagonal, diagonal), each with opacity 0.08 and phases in range |
| HeroBackgroundSimple.DiagonalGrid | src/components/HeroBackgroundSimple.tsx:31-57 | the grid holds n lines running down to the right followed by n running down to the left, n being the number of 120-steps from `-diagonal` that stay below `diagonal`; the k-th line of each half sits at offset `-diagonal + 120k`, in [-diagonal, diagonal); every opacity is 0.08 and every phase in range |
| HeroBackgroundSimple.AppendLines | src/components/HeroBackgroundSimple.tsx:37-45 | one loop whose counter starts at `-diagonal` and steps by 120 appends exactly the lines of one direction, drawing on after the lines already made |
| HeroBackgroundSimple.CreateDiagonalGrid | src/components/HeroBackgroundSimple.tsx:31-57 | the right-running loop and then the left-running loop build exactly the lines `DiagonalGrid` describes |
| HeroBackgroundSimple.Stroke | src/components/HeroBackgroundSimple.tsx:91-100 | every line is stroked from the top edge to the bottom edge at 45 degrees; a right line starts at its offset and runs right, a left line starts at width minus its offset and runs left |
| HeroBackgroundSimple.StrokesMirror | src/components/HeroBackgroundSimple.tsx:91-100 | at equal offsets a left line is the mirror image of a right line in the canvas' vertical centre line |
| HeroBackgroundSimple.GridColor | src/components/HeroBackgroundSimple.tsx:84-86 | every grid line is stroked in one of the three grid colours |
| HeroBackgroundSimple.GridColorPeriodic | src/components/HeroBackgroundSimple.tsx:84-86 | grid colours repeat every three lines |
| HeroBackgroundSimple.NeighbouringColorsDiffer | src/components/HeroBackgroundSimple.tsx:84-86 | neighbouring lines never share a colour |
| HeroBackgroundSimple.LineOpacity | src/components/HeroBackgroundSimple.tsx:75-81 | the wave factor in [0.2, 1] times the flow factor in [0.4, 1] keeps a line's drawn opacity between 0.08 times its base opacity and its base opacity |
| HeroBackgroundSimple.Resize | src/components/HeroBackgroundSimple.tsx:163-171 | a resize gives the canvas the new size, keeps the clock, and replaces the collections with 60 freshly spawned particles and a fresh diagonal grid: n right-running lines then n left-running lines, paired at the offsets -diagonal + 120k; the scene satisfies the frame invariant |
| HeroBackgroundSimple.ResizeDiscardsEntities | src/components/HeroBackgroundSimple.tsx:167-170 | no entity survives a resize: two scenes resized alike differ only in their clocks |
| HeroBackgroundSimple.Frame | src/components/HeroBackgroundSimple.tsx:66-116 | a frame advances the clock by exactly 0.01, leaves the grid alone, advances every particle exactly once by its own update in its own slot, and preserves the frame invariant |
| HeroBackgroundSimple.FramesKeepValid | src/components/HeroBackgroundSimple.tsx:59-161 | after n frames the invariant and canvas hold and the clock has advanced by exactly 0.01 n |
| HeroBackgroundSimple.FramesTickEachEntity | src/components/HeroBackgroundSimple.tsx:105-116 | n frames keep the canvas, the grid and the particle count and put in every slot exactly n glides of the particle that started there |
| HeroBackgroundSimple.GridOpacities | src/components/HeroBackgroundSimple.tsx:75-81 | in a valid scene every grid line is stroked with opacity in [0.0064, 0.08] at any clock reading |
| HeroBackgroundSimple.ParticleOpacities | src/components/HeroBackgroundSimple.tsx:119-123 | in a valid scene every particle is drawn with opacity in [0.12, 1.2), never above its base opacity |
| HeroBackgroundSimple.OpacitiesAfterFrames | src/components/HeroBackgroundSimple.tsx:59-171 | after a resize and any number of frames those opacity bounds hold |
| Typewriter.Slice | src/components/Hero.tsx:22 | `word.slice(0, k)` is a prefix of the word, of length k or of the whole word when k runs past its end |
| Typewriter.Step | src/components/Hero.tsx:19-38 | typing adds exactly one character and stays a prefix; the pause raises the deleting flag and keeps the text; deleting removes exactly one character; advancing clears the flag and moves to the next word modulo four; with no guard the state is unchanged; the prefix invariant is preserved |
| Typewriter.ExactlyOneGuard | src/components/Hero.tsx:19-38 | in every state keeping the invariant exactly one of the four branches applies |
| Typewriter.ReachableInv | src/components/Hero.tsx:19-37 | from mount on, the typed text is always a prefix of the current word |
| Typewriter.ReachableOneGuard | src/components/Hero.tsx:16-41 | in every state reached from mount exactly one branch applies, so the headline never stalls |
| Typewriter.TypingPhase | src/components/Hero.tsx:19-23 | from an empty headline, k transitions type exactly the first k characters |
| Typewriter.DeletingPhase | src/components/Hero.tsx:29-33 | from the full word while deleting, k transitions remove exactly the last k characters |
| Typewriter.Typed | src/components/Hero.tsx:19-28 | typing the word and pausing takes exactly `|word| + 1` transitions and ends with the full word and the deleting flag set |
| Typewriter.WordCycle | src/components/Hero.tsx:19-38 | from `("", i, false)`, exactly `2 * |word i| + 2` transitions reach `("", (i + 1) mod 4, false)` |
| Typewriter.StaysOnWord | src/components/Hero.tsx:19-37 | before the last transition of its cycle the headline stays on the same word |
| Typewriter.Next | src/components/Hero.tsx:37 | the word after the last one is the first one; otherwise it is the next in the list |
| Typewriter.FullTurn | src/components/Hero.tsx:13-37 | moving on four times returns to the same word |
| Typewriter.RoundLength | src/components/Hero.tsx:13 | going through all four words takes 14 + 34 + 24 + 24 = 96 transitions, whichever word comes first |
| Typewriter.Periodic | src/components/Hero.tsx:16-41 | from the start of any word, the headline is in the same state 96 transitions later, and so at every later point |

## Left out

- Canvas drawing: paths, arcs, ellipses, gradients, shadows, fills and the fade rectangle. These are output with no state. Only the opacity each draw call sets is modelled.
- The shape drawers (`drawWireframeSphere`, `drawGlassyCube`, `drawOrigami`, `drawTriangle`, `drawSquare`, `drawHexagon`), the background gradient, `drawWaves` and the energy-wave bands. They draw from the clock alone and keep no state.
- The early exit of every frame callback when the canvas or its 2-D context is missing (HeroBackground.tsx:420-424, AnimatedBackground.tsx:114-118, HeroBackgroundSimple.tsx:60-64). That exit skips the clock tick and schedules no further frame. `Frame` models only the path on which both exist.
- React hooks and refs, the `requestAnimationFrame` loop, and the resize and mouse-move listeners with their `getBoundingClientRect` arithmetic. The model takes the canvas size and the cursor position as given values.
- `Math.random`, `Math.sin` and `Math.cos` as real functions. Random values are a caller-supplied stream of draws in [0, 1). Sine and cosine are caller-supplied functions known only to lie in [-1, 1]. No property depends on their exact values.
- IEEE double arithmetic. All arithmetic is exact over the reals. Rounding, `NaN` and infinities are not modelled.
- The typewriter's `setTimeout` delays (100, 2000 and 80 ms) and the cleanup that cancels them. Only the transition each effect run schedules is modelled.
- The hero section's SVG markup, image, role buttons and `console.log`, and the static `HeroTest.tsx` component. These are markup without logic.
- Canvas treatment of out-of-range opacities. A canvas ignores a `globalAlpha` assignment outside [0, 1]. The model gives the value the code computes, not what the canvas then uses.
- HeroBackground.CursorDistance: only assumes that `Math.sqrt` is never negative. It does not relate the distance to `dx` and `dy` any further. As a result, "at distance 0 the velocity is unchanged" is stated by position: a particle exactly under the cursor.
- HeroBackgroundSimple.Diagonal: only assumes that `Math.sqrt` is never negative, for the same reason.
- HeroBackgroundSimple.AppendLines: the loop counter is accumulated with exact addition. The double rounding of `i += 120` could add or drop a final line when an offset lands within rounding error of the diagonal; the model does not cover that.
- HeroBackground.RibbonPoints: the rest heights use `Math.sin(j * 0.5)` only through its range. The exact shape of the curve is not modelled.

=== FILE: animated_background.dfy ===
/** The animated background behind the hero section: outlined polygons that
    turn and drift slowly, and pulsing dots, over a hue-shifting gradient. The
    gradient and the energy-wave bands hold no state and are not modelled;
    what remains is the state each frame changes and the opacities it is
    drawn with. */
module AnimatedBackground {
  import opened Common

  /** The colours particles are drawn in. */
  const PrimaryPalette: seq<string> := ["#FF6B6B", "#4ECDC4", "#45B7D1", "#96CEB4", "#FECA57"]

  /** The colours shapes are outlined in. */
  const AccentPalette: seq<string> := ["#FF9FF3", "#54A0FF", "#5F27CD", "#00D2D3", "#FF9F43"]

  // ---------------------------------------------------------------- particles

  const ParticleCount: nat := 80

  /** Draws per particle: x, y, vx, vy, size, colour, alpha, pulse. */
  const ParticleDraws: nat := 8

  /** The per-frame advance of a particle's pulse phase. */
  const PulseStep: real := 0.03

  /** The ranges `createParticles` draws every field from. */
  predicate Spawned(p: PulsingParticle, width: nat, height: nat) {
    && 0.0 <= p.x <= width as real && (0 < width ==> p.x < width as real)
    && 0.0 <= p.y <= height as real && (0 < height ==> p.y < height as real)
    && -0.4 <= p.vx < 0.4 && -0.4 <= p.vy < 0.4
    && 2.0 <= p.size < 6.0
    && p.color in PrimaryPalette
    && 0.2 <= p.alpha < 1.0
    && 0.0 <= p.pulse < 2.0 * Pi
  }

  /** What stays true of a particle frame after frame. */
  predicate Live(p: PulsingParticle, width: nat, height: nat) {
    && OnCanvas(p.x, p.y, width, height)
    && 2.0 <= p.size < 6.0
    && p.color in PrimaryPalette
    && 0.2 <= p.alpha < 1.0
  }

  function SpawnParticle(width: nat, height: nat, d: Random): (p: PulsingParticle)
    ensures Spawned(p, width, height)
  {
    PulsingParticle(
      Scale(d(0), width as real), Scale(d(1), height as real),
      (d(2) - 0.5) * 0.8, (d(3) - 0.5) * 0.8,
      d(4) * 4.0 + 2.0, PrimaryPalette[Pick(d(5), |PrimaryPalette|)],
      d(6) * 0.8 + 0.2, Phase(d(7)))
  }

  /** `createParticles`: the old particles are dropped and 80 new ones are
      made, the k-th from draws 8k .. 8k+7. */
  function CreateParticles(width: nat, height: nat, rand: Random): (ps: seq<PulsingParticle>)
    ensures |ps| == ParticleCount
    ensures forall k :: 0 <= k < |ps| ==> Spawned(ps[k], width, height)
  {
    seq(ParticleCount, k requires 0 <= k => SpawnParticle(width, height, Skip(rand, ParticleDraws * k)))
  }

  /** The update half of the particle loop in `animate`: move, advance the
      pulse by 0.03, wrap at the canvas edges onto the closed canvas. */
  function ParticleTick(p: PulsingParticle, width: nat, height: nat): (q: PulsingParticle)
    ensures OnCanvas(q.x, q.y, width, height)
    ensures q.pulse == p.pulse + PulseStep
    ensures q.vx == p.vx && q.vy == p.vy && q.size == p.size && q.color == p.color && q.alpha == p.alpha
    ensures WrapsTo(p.x + p.vx, q.x, width as real, 0.0) && WrapsTo(p.y + p.vy, q.y, height as real, 0.0)
  {
    Glide(p, width, height, PulseStep)
  }

  // ------------------------------------------------------------------- shapes

  datatype ShapeKind = Triangle | Square | Hexagon

  const ShapeKinds: seq<ShapeKind> := [Triangle, Square, Hexagon]

  datatype Shape = Shape(
    x: real, y: real, size: real, rotation: real, rotationSpeed: real,
    kind: ShapeKind, color: string, alpha: real)

  const ShapeCount: nat := 12

  /** Draws per shape: x, y, size, rotation speed, kind, colour. */
  const ShapeDraws: nat := 6

  /** How far past the canvas edge a shape may travel before it wraps. */
  const Margin: real := 100.0

  /** How far the drift moves a shape along each axis per frame, at most. */
  const DriftSpeed: real := 0.3

  /** The ranges `createGeometricShapes` draws every field from. */
  predicate SpawnedShape(s: Shape, width: nat, height: nat) {
    && 0.0 <= s.x <= width as real && (0 < width ==> s.x < width as real)
    && 0.0 <= s.y <= height as real && (0 < height ==> s.y < height as real)
    && 20.0 <= s.size < 60.0
    && s.rotation == 0.0
    && -0.01 <= s.rotationSpeed < 0.01
    && s.color in AccentPalette
    && s.alpha == 0.1
  }

  function SpawnShape(width: nat, height: nat, d: Random): (s: Shape)
    ensures SpawnedShape(s, width, height)
  {
    Shape(
      Scale(d(0), width as real), Scale(d(1), height as real),
      d(2) * 40.0 + 20.0, 0.0, (d(3) - 0.5) * 0.02,
      ShapeKinds[Pick(d(4), |ShapeKinds|)], AccentPalette[Pick(d(5), |AccentPalette|)], 0.1)
  }

  /** `createGeometricShapes`: the old shapes are dropped and twelve new ones
      are made, the k-th from draws 6k .. 6k+5. */
  function CreateShapes(width: nat, height: nat, rand: Random): (ss: seq<Shape>)
    ensures |ss| == ShapeCount
    ensures forall k :: 0 <= k < |ss| ==> SpawnedShape(ss[k], width, height)
  {
    seq(ShapeCount, k requires 0 <= k => SpawnShape(width, height, Skip(rand, ShapeDraws * k)))
  }

  /** The slow drift: x moves by `sin(time * 0.005 + y * 0.001) * 0.3`, then y
      by `cos(time * 0.005 + x * 0.001) * 0.3` with the x just moved. Each
      axis moves by at most 0.3 and nothing else changes. */
  function Drift(s: Shape, time: nat, sin: Wave, cos: Wave): (t: Shape)
    ensures -DriftSpeed <= t.x - s.x <= DriftSpeed && -DriftSpeed <= t.y - s.y <= DriftSpeed
    ensures t == s.(x := t.x, y := t.y)
  {
    var x := s.x + Modulate(sin(time as real * 0.005 + s.y * 0.001), DriftSpeed, 0.0);
    var y := s.y + Modulate(cos(time as real * 0.005 + x * 0.001), DriftSpeed, 0.0);
    s.(x := x, y := y)
  }

  /** The update half of the shape loop in `animate`: turn by the rotation
      speed, drift, then wrap with the 100-unit margin. */
  function ShapeTick(s: Shape, time: nat, sin: Wave, cos: Wave, width: nat, height: nat): (t: Shape)
    ensures InBand(t.x, t.y, width, height, Margin)
    ensures t.rotation == s.rotation + s.rotationSpeed
    ensures t == s.(x := t.x, y := t.y, rotation := t.rotation)
    ensures var d := Drift(s, time, sin, cos);
      InBand(d.x, d.y, width, height, Margin) ==> t.x == d.x && t.y == d.y
    ensures var d := Drift(s, time, sin, cos);
      WrapsTo(d.x, t.x, width as real, Margin) && WrapsTo(d.y, t.y, height as real, Margin)
  {
    var d := Drift(s, time, sin, cos);
    d.(rotation := s.rotation + s.rotationSpeed,
       x := Wrap(d.x, width as real, Margin),
       y := Wrap(d.y, height as real, Margin))
  }

  /** The shape steps of the frames after the clock read `time`: the first at
      `time + 1`, the n-th at `time + n`. */
  function ShapeTicks(s: Shape, time: nat, n: nat, sin: Wave, cos: Wave, width: nat, height: nat): Shape {
    if n == 0 then s
    else ShapeTick(ShapeTicks(s, time, n - 1, sin, cos, width, height), time + n, sin, cos, width, height)
  }

  /** Over `n` steps a shape turns by exactly `n` times its rotation speed,
      changes nothing but its position and angle, and once it has moved at all
      lies within the margin band. */
  lemma {:induction false} ShapeTurns(s: Shape, time: nat, n: nat, sin: Wave, cos: Wave, width: nat, height: nat)
    ensures var t := ShapeTicks(s, time, n, sin, cos, width, height);
      && t.rotation == s.rotation + n as real * s.rotationSpeed
      && t == s.(x := t.x, y := t.y, rotation := t.rotation)
      && (0 < n ==> InBand(t.x, t.y, width, height, Margin))
  {
    if n > 0 {
      ShapeTurns(s, time, n - 1, sin, cos, width, height);
      assert (n - 1) as real * s.rotationSpeed + s.rotationSpeed == n as real * s.rotationSpeed;
    }
  }

  /** The opacity a shape is outlined with, `alpha + sin(time * 0.01 + x * 0.01) * 0.05`,
      computed before the shape moves. */
  function ShapeOpacity(s: Shape, time: nat, sin: Wave): (a: real)
    ensures s.alpha - 0.05 <= a <= s.alpha + 0.05
  {
    s.alpha + Modulate(sin(time as real * 0.01 + s.x * 0.01), 0.05, 0.0)
  }

  // -------------------------------------------------------------------- scene

  datatype Scene = Scene(
    width: nat, height: nat, time: nat,
    particles: seq<PulsingParticle>, shapes: seq<Shape>)

  /** The frame invariant: live particles on the closed canvas, shapes within
      the margin band with their creation opacity 0.1. */
  predicate Valid(s: Scene) {
    && (forall k :: 0 <= k < |s.particles| ==> Live(s.particles[k], s.width, s.height))
    && (forall k :: 0 <= k < |s.shapes| ==>
          InBand(s.shapes[k].x, s.shapes[k].y, s.width, s.height, Margin) && s.shapes[k].alpha == 0.1)
  }

  /** `handleResize`: the canvas takes the new size and both collections are
      rebuilt from fresh draws, particles first; the clock is kept. */
  function Resize(s: Scene, width: nat, height: nat, rand: Random): (r: Scene)
    ensures r.width == width && r.height == height && r.time == s.time
    ensures |r.particles| == ParticleCount && |r.shapes| == ShapeCount
    ensures forall k :: 0 <= k < |r.particles| ==> Spawned(r.particles[k], width, height)
    ensures forall k :: 0 <= k < |r.shapes| ==> SpawnedShape(r.shapes[k], width, height)
    ensures Valid(r)
  {
    var particles := CreateParticles(width, height, rand);
    var shapes := CreateShapes(width, height, Skip(rand, ParticleDraws * ParticleCount));
    Scene(width, height, s.time, particles, shapes)
  }

  /** Nothing of the scene before a resize survives it but the clock: two
      scenes resized to the same size from the same draws differ at most in
      their clocks. */
  lemma ResizeDiscardsEntities(s1: Scene, s2: Scene, width: nat, height: nat, rand: Random)
    ensures Resize(s1, width, height, rand).(time := 0) == Resize(s2, width, height, rand).(time := 0)
  {
  }

  /** `animate` without the drawing: the clock ticks, then every shape and
      every particle is advanced once. */
  function Frame(s: Scene, sin: Wave, cos: Wave): (r: Scene)
    ensures r.time == s.time + 1
    ensures r.width == s.width && r.height == s.height
    ensures |r.particles| == |s.particles| && |r.shapes| == |s.shapes|
    ensures forall k {:trigger r.shapes[k]} :: 0 <= k < |r.shapes| ==>
      r.shapes[k] == ShapeTick(s.shapes[k], s.time + 1, sin, cos, s.width, s.height)
    ensures forall k {:trigger r.particles[k]} :: 0 <= k < |r.particles| ==>
      r.particles[k] == ParticleTick(s.particles[k], s.width, s.height)
    ensures Valid(s) ==> Valid(r)
  {
    var time := s.time + 1;
    var shapes := seq(|s.shapes|, k requires 0 <= k < |s.shapes| =>
      ShapeTick(s.shapes[k], time, sin, cos, s.width, s.height));
    var particles := seq(|s.particles|, k requires 0 <= k < |s.particles| =>
      ParticleTick(s.particles[k], s.width, s.height));
    Scene(s.width, s.height, time, particles, shapes)
  }

  function Frames(s: Scene, n: nat, sin: Wave, cos: Wave): Scene {
    if n == 0 then s else Frame(Frames(s, n - 1, sin, cos), sin, cos)
  }

  lemma {:induction false} FramesKeepValid(s: Scene, n: nat, sin: Wave, cos: Wave)
    requires Valid(s)
    ensures Valid(Frames(s, n, sin, cos))
    ensures Frames(s, n, sin, cos).width == s.width && Frames(s, n, sin, cos).height == s.height
    ensures Frames(s, n, sin, cos).time == s.time + n
  {
    if n > 0 {
      FramesKeepValid(s, n - 1, sin, cos);
    }
  }

  /** Frames act on every shape independently: `n` frames leave the canvas
      alone, advance the clock by `n`, and put in every slot exactly what the
      steps at times `time + 1` to `time + n` make of the shape that started
      there. */
  lemma {:induction false} FramesTickShapes(s: Scene, n: nat, sin: Wave, cos: Wave)
    ensures var t := Frames(s, n, sin, cos);
      && t.width == s.width && t.height == s.height && t.time == s.time + n
      && |t.shapes| == |s.shapes|
      && (forall k :: 0 <= k < |t.shapes| ==>
            t.shapes[k] == ShapeTicks(s.shapes[k], s.time, n, sin, cos, s.width, s.height))
  {
    if n > 0 {
      FramesTickShapes(s, n - 1, sin, cos);
      var u := Frames(s, n - 1, sin, cos);
      var t := Frame(u, sin, cos);
      assert u.time + 1 == s.time + n;
      forall k | 0 <= k < |t.shapes|
        ensures t.shapes[k] == ShapeTicks(s.shapes[k], s.time, n, sin, cos, s.width, s.height)
      {
        var before := ShapeTicks(s.shapes[k], s.time, n - 1, sin, cos, s.width, s.height);
        assert u.shapes[k] == before;
        assert t.shapes[k] == ShapeTick(before, s.time + n, sin, cos, s.width, s.height);
      }
    }
  }

  /** Frames act on every particle independently: after `n` frames every slot
      holds exactly what `n` glides make of the particle that started there. */
  lemma {:induction false} FramesTickParticles(s: Scene, n: nat, sin: Wave, cos: Wave)
    ensures var t := Frames(s, n, sin, cos);
      && t.width == s.width && t.height == s.height
      && |t.particles| == |s.particles|
      && (forall k :: 0 <= k < |t.particles| ==>
            t.particles[k] == Glides(s.particles[k], n, s.width, s.height, PulseStep))
  {
    if n > 0 {
      FramesTickParticles(s, n - 1, sin, cos);
      var u := Frames(s, n - 1, sin, cos);
      var t := Frame(u, sin, cos);
      forall k | 0 <= k < |t.particles|
        ensures t.particles[k] == Glides(s.particles[k], n, s.width, s.height, PulseStep)
      {
        assert t.particles[k] == Glide(u.particles[k], u.width, u.height, PulseStep);
      }
    }
  }

  /** In a valid scene every shape is outlined with opacity in [0.05, 0.15],
      whatever the clock reads when it is drawn, and every particle is drawn
      with opacity in [0.08, 1), never above its base opacity. */
  lemma ValidOpacities(s: Scene, time: nat, sin: Wave)
    requires Valid(s)
    ensures forall k :: 0 <= k < |s.shapes| ==> 0.05 <= ShapeOpacity(s.shapes[k], time, sin) <= 0.15
    ensures forall k :: 0 <= k < |s.particles| ==>
      0.08 <= PulseOpacity(s.particles[k], sin) <= s.particles[k].alpha < 1.0
  {
    forall k | 0 <= k < |s.particles|
      ensures 0.08 <= PulseOpacity(s.particles[k], sin)
    {
      var p := s.particles[k];
      assert 0.2 <= p.alpha;
      assert p.alpha * 0.4 >= 0.08;
    }
  }

  /** From a resize on, however many frames follow, the drawn opacities stay
      within those bounds; shapes are checked at the clock the next frame
      outlines them with, one past the clock the frames have reached. */
  lemma OpacitiesAfterFrames(s: Scene, width: nat, height: nat, rand: Random, n: nat, sin: Wave, cos: Wave)
    ensures var t := Frames(Resize(s, width, height, rand), n, sin, cos);
      && (forall k :: 0 <= k < |t.shapes| ==> 0.05 <= ShapeOpacity(t.shapes[k], t.time + 1, sin) <= 0.15)
      && (forall k :: 0 <= k < |t.particles| ==> 0.08 <= PulseOpacity(t.particles[k], sin) < 1.0)
  {
    var r := Resize(s, width, height, rand);
    FramesKeepValid(r, n, sin, cos);
    var t := Frames(r, n, sin, cos);
    ValidOpacities(t, t.time + 1, sin);
  }
}

=== FILE: common.dfy ===
/** Vocabulary shared by the three canvas backgrounds: the host's random and
    trigonometric primitives known only through their ranges, palette picking,
    the sine-modulated opacity factors, and the edge-wrapping rule every moving
    entity obeys. */
module Common {

  /** One value of `Math.random()`: a real in [0, 1). */
  type Draw = r: real | 0.0 <= r < 1.0

  /** The values that successive `Math.random()` calls return, in call order. */
  type Random = nat -> Draw

  /** One value of `Math.sin` or `Math.cos`: a real in [-1, 1]. */
  type Trig = r: real | -1.0 <= r <= 1.0

  /** `Math.sin` or `Math.cos`, known only through its range. */
  type Wave = real -> Trig

  /** `Math.PI`, written as the decimal literal that denotes the double. */
  const Pi: real := 3.141592653589793

  /** What the model relies on of `Math.sqrt`: it is never negative. */
  ghost predicate NonNegativeRoot(sqrt: real -> real) {
    forall x: real :: 0.0 <= x ==> 0.0 <= sqrt(x)
  }

  /** The stream left once its first `n` draws have been consumed. */
  function Skip(rand: Random, n: nat): Random {
    i => rand(n + i)
  }

  /** A plain two-component vector: a cursor position or a per-tick drift. */
  datatype Vec = Vec(x: real, y: real)

  /** `Math.floor(r * n)`: the index a draw selects in an array of `n` entries. */
  function Pick(r: Draw, n: nat): (k: nat)
    requires n > 0
    ensures k < n
    ensures k as real <= r * n as real < k as real + 1.0
  {
    ScaleBounds(r, n as real);
    (r * n as real).Floor as nat
  }

  /** The five neon colours `getRandomColor` chooses between; the hero
      background and its simplified variant declare the same list. */
  const NeonPalette: seq<string> := ["#00ffff", "#ff1493", "#ffd700", "#9400d3", "#00ff7f"]

  /** `getRandomColor`: the neon colour one draw selects. */
  function NeonColor(r: Draw): (c: string)
    ensures c in NeonPalette
  {
    NeonPalette[Pick(r, |NeonPalette|)]
  }

  function Abs(x: real): real {
    if x < 0.0 then -x else x
  }

  /** A sine sample scales `amplitude` to at most its own magnitude. */
  lemma TrigScale(s: Trig, amplitude: real)
    ensures -Abs(amplitude) <= s * amplitude <= Abs(amplitude)
  {
    var m := Abs(amplitude);
    var below, above := s + 1.0, 1.0 - s;
    assert 0.0 <= below * m && 0.0 <= above * m;
    if amplitude < 0.0 {
      assert s * amplitude == -(s * m);
    }
  }

  /** A square is never negative. */
  lemma Square(d: real)
    ensures 0.0 <= d * d
  {
    if d < 0.0 {
      assert d * d == (-d) * (-d);
    }
  }

  /** A sine sample times an amplitude: a displacement no larger than the
      amplitude's magnitude. */
  function Oscillate(s: Trig, amplitude: real): (v: real)
    ensures -Abs(amplitude) <= v <= Abs(amplitude)
  {
    TrigScale(s, amplitude);
    s * amplitude
  }

  /** `Math.random() * extent`: a uniform coordinate along an axis of length `extent`. */
  function Scale(r: Draw, extent: real): (v: real)
    requires 0.0 <= extent
    ensures 0.0 <= v <= extent
    ensures 0.0 < extent ==> v < extent
  {
    ScaleBounds(r, extent);
    r * extent
  }

  lemma ScaleBounds(r: Draw, extent: real)
    requires 0.0 <= extent
    ensures 0.0 <= r * extent <= extent
    ensures 0.0 < extent ==> r * extent < extent
  {
    if 0.0 < extent {
      assert (1.0 - r) * extent > 0.0;
    }
  }

  /** `Math.random() * Math.PI * 2`: a random phase. */
  function Phase(r: Draw): (v: real)
    ensures 0.0 <= v < 2.0 * Pi
  {
    r * Pi * 2.0
  }

  /** A sine sample `s` mapped affinely as `s * depth + base`, the shape of every
      pulsing, waving and flowing opacity factor in the backgrounds. */
  function Modulate(s: Trig, depth: real, base: real): (f: real)
    requires 0.0 <= depth
    ensures base - depth <= f <= base + depth
  {
    s * depth + base
  }

  /** One axis of the wrap-around rule as every background writes it: a
      coordinate more than `margin` below zero jumps to `limit + margin`; after
      that, one more than `margin` beyond `limit` jumps to `-margin`. The result
      lies in the CLOSED band [-margin, limit + margin]. */
  function Wrap(v: real, limit: real, margin: real): (r: real)
    requires 0.0 <= limit && 0.0 <= margin
    ensures -margin <= r <= limit + margin
    ensures -margin <= v <= limit + margin ==> r == v
    ensures v < -margin ==> r == limit + margin
    ensures v > limit + margin ==> r == -margin
  {
    var entered := if v < -margin then limit + margin else v;
    if entered > limit + margin then -margin else entered
  }

  /** Where the wrap-around rule sends `v`, stated case by case: a coordinate
      below the band reappears at its far edge `limit + margin`, one beyond the
      band reappears at its near edge `-margin`, and one inside stays put. */
  predicate WrapsTo(v: real, r: real, limit: real, margin: real) {
    && (v < -margin ==> r == limit + margin)
    && (v > limit + margin ==> r == -margin)
    && (-margin <= v <= limit + margin ==> r == v)
  }

  /** Wrapping a coordinate that is already inside the band leaves it alone, so
      wrapping twice is the same as wrapping once. */
  lemma WrapIdempotent(v: real, limit: real, margin: real)
    requires 0.0 <= limit && 0.0 <= margin
    ensures Wrap(Wrap(v, limit, margin), limit, margin) == Wrap(v, limit, margin)
  {
  }

  /** The particle record of the two backgrounds whose particles carry a pulse
      phase instead of a lifetime counter. */
  datatype PulsingParticle = PulsingParticle(
    x: real, y: real, vx: real, vy: real,
    size: real, color: string, alpha: real, pulse: real)

  /** Inside the canvas widened by `margin` on every side, edges included. */
  predicate InBand(x: real, y: real, width: nat, height: nat, margin: real) {
    -margin <= x <= width as real + margin && -margin <= y <= height as real + margin
  }

  /** Inside the closed canvas rectangle [0, width] x [0, height]. */
  predicate OnCanvas(x: real, y: real, width: nat, height: nat) {
    0.0 <= x <= width as real && 0.0 <= y <= height as real
  }

  /** The particle step both pulsing backgrounds share: move by the velocity,
      advance the pulse phase by `pulseStep`, wrap each axis at the canvas edge. */
  function Glide(p: PulsingParticle, width: nat, height: nat, pulseStep: real): (q: PulsingParticle)
    ensures OnCanvas(q.x, q.y, width, height)
    ensures q.pulse == p.pulse + pulseStep
    ensures q == p.(x := q.x, y := q.y, pulse := q.pulse)
    ensures OnCanvas(p.x + p.vx, p.y + p.vy, width, height) ==> q.x == p.x + p.vx && q.y == p.y + p.vy
    ensures WrapsTo(p.x + p.vx, q.x, width as real, 0.0) && WrapsTo(p.y + p.vy, q.y, height as real, 0.0)
  {
    p.(x := Wrap(p.x + p.vx, width as real, 0.0),
       y := Wrap(p.y + p.vy, height as real, 0.0),
       pulse := p.pulse + pulseStep)
  }

  function Glides(p: PulsingParticle, n: nat, width: nat, height: nat, pulseStep: real): PulsingParticle {
    if n == 0 then p else Glide(Glides(p, n - 1, width, height, pulseStep), width, height, pulseStep)
  }

  /** Over `n` steps a pulsing particle's phase advances by exactly `n` pulse
      steps, nothing but its position and phase changes, and once it has moved
      at all it rests on the closed canvas. */
  lemma {:induction false} GlidesPulse(p: PulsingParticle, n: nat, width: nat, height: nat, pulseStep: real)
    ensures var q := Glides(p, n, width, height, pulseStep);
      && q.pulse == p.pulse + n as real * pulseStep
      && q == p.(x := q.x, y := q.y, pulse := q.pulse)
      && (0 < n ==> OnCanvas(q.x, q.y, width, height))
  {
    if n > 0 {
      GlidesPulse(p, n - 1, width, height, pulseStep);
      assert (n - 1) as real * pulseStep + pulseStep == n as real * pulseStep;
    }
  }

  /** `alpha * (s * depth + base)`: an opacity dimmed by a sine-modulated
      factor that stays in [base - depth, base + depth] and so never exceeds 1. */
  function Attenuate(alpha: real, s: Trig, depth: real, base: real): (a: real)
    requires 0.0 <= depth && base + depth <= 1.0
    ensures 0.0 <= alpha ==> alpha * (base - depth) <= a <= alpha
  {
    var factor := Modulate(s, depth, base);
    FactorBounds(alpha, factor, base - depth);
    alpha * factor
  }

  /** A particle's drawn opacity `alpha * (sin(pulse) * 0.3 + 0.7)`, identical in
      both pulsing backgrounds. The factor lies in [0.4, 1], so the drawn
      opacity is between 0.4 and 1 times the base opacity. */
  function PulseOpacity(p: PulsingParticle, sin: Wave): (a: real)
    ensures 0.0 <= p.alpha ==> p.alpha * 0.4 <= a <= p.alpha
  {
    Attenuate(p.alpha, sin(p.pulse), 0.3, 0.7)
  }

  /** Multiplying a non-negative quantity by a factor in [lo, 1] keeps it
      between `lo` times itself and itself. */
  lemma FactorBounds(q: real, f: real, lo: real)
    requires lo <= f <= 1.0
    ensures 0.0 <= q ==> q * lo <= q * f <= q
  {
    if 0.0 <= q {
      assert 0.0 <= q * (f - lo) && 0.0 <= q * (1.0 - f);
    }
  }
}

=== FILE: hero_background.dfy ===
/** The neon hero background: particles that drift toward the cursor, a square
    grid, drifting 3-D shapes and waving ribbons. Canvas drawing is stripped
    away; what remains is the state each frame changes and the opacity
    factors each draw call computes from it. */
module HeroBackground {
  import opened Common

  // ---------------------------------------------------------------- particles

  datatype Particle = Particle(
    x: real, y: real, vx: real, vy: real,
    size: real, color: string, alpha: real, life: real)

  const ParticleCount: nat := 100

  /** `Math.random()` calls one particle consumes: x, y, vx, vy, size, colour,
      alpha and life, in that order. */
  const ParticleDraws: nat := 8

  /** The ranges `createParticles` draws every field from. */
  predicate Spawned(p: Particle, width: nat, height: nat) {
    && 0.0 <= p.x <= width as real && (0 < width ==> p.x < width as real)
    && 0.0 <= p.y <= height as real && (0 < height ==> p.y < height as real)
    && -0.25 <= p.vx < 0.25 && -0.25 <= p.vy < 0.25
    && 1.0 <= p.size < 4.0
    && p.color in NeonPalette
    && 0.2 <= p.alpha < 1.0
    && 0.0 <= p.life < 1000.0
  }

  /** What stays true of a particle frame after frame: it sits on the closed
      canvas and keeps the size, colour and opacity it was created with. */
  predicate Live(p: Particle, width: nat, height: nat) {
    && OnCanvas(p.x, p.y, width, height)
    && 1.0 <= p.size < 4.0
    && p.color in NeonPalette
    && 0.2 <= p.alpha < 1.0
  }

  /** One iteration of the `createParticles` loop, reading its draws from `d`. */
  function SpawnParticle(width: nat, height: nat, d: Random): (p: Particle)
    ensures Spawned(p, width, height)
  {
    Particle(
      Scale(d(0), width as real), Scale(d(1), height as real),
      (d(2) - 0.5) * 0.5, (d(3) - 0.5) * 0.5,
      d(4) * 3.0 + 1.0, NeonColor(d(5)), d(6) * 0.8 + 0.2, d(7) * 1000.0)
  }

  /** `createParticles`: 100 particles, the k-th built from draws 8k .. 8k+7. */
  function CreateParticles(width: nat, height: nat, rand: Random): (ps: seq<Particle>)
    ensures |ps| == ParticleCount
    ensures forall k :: 0 <= k < |ps| ==> Spawned(ps[k], width, height)
  {
    seq(ParticleCount, k requires 0 <= k => SpawnParticle(width, height, Skip(rand, ParticleDraws * k)))
  }

  lemma SpawnedIsLive(p: Particle, width: nat, height: nat)
    requires Spawned(p, width, height)
    ensures Live(p, width, height)
  {
  }

  /** Radius within which the cursor pulls particles. */
  const Reach: real := 150.0

  /** Scale of the pull added to the velocity each frame. */
  const Strength: real := 0.0001

  /** The pull factor `(150 - distance) / 150`: strongest, exactly 1, at the
      cursor itself and fading to nothing at the edge of the reach. */
  function Pull(distance: real): (f: real)
    requires 0.0 <= distance < Reach
    ensures 0.0 < f <= 1.0
    ensures f == 1.0 <==> distance == 0.0
  {
    (Reach - distance) / Reach
  }

  /** `Math.sqrt(dx * dx + dy * dy)` between a particle and the cursor. */
  function CursorDistance(p: Particle, mouse: Vec, sqrt: real -> real): (d: real)
    requires NonNegativeRoot(sqrt)
    ensures 0.0 <= d
  {
    var dx := mouse.x - p.x;
    var dy := mouse.y - p.y;
    assert 0.0 <= dx * dx + dy * dy by {
      Square(dx);
      Square(dy);
    }
    sqrt(dx * dx + dy * dy)
  }

  /** The cursor interaction: within reach, each velocity component gains
      `d * pull * 0.0001` for the offset `d` toward the cursor along that axis.
      Only the velocity can change; it changes exactly when the particle is
      within reach and not already under the cursor, and never away from it.
      `AttractIsGentle` bounds by how much. */
  function Attract(p: Particle, mouse: Vec, sqrt: real -> real): (q: Particle)
    requires NonNegativeRoot(sqrt)
    ensures q == p.(vx := q.vx, vy := q.vy)
    ensures q != p <==> CursorDistance(p, mouse, sqrt) < Reach && (p.x != mouse.x || p.y != mouse.y)
    ensures p.x == mouse.x && p.y == mouse.y ==> q == p
    ensures 0.0 <= (q.vx - p.vx) * (mouse.x - p.x) && 0.0 <= (q.vy - p.vy) * (mouse.y - p.y)
  {
    var dx := mouse.x - p.x;
    var dy := mouse.y - p.y;
    var distance := CursorDistance(p, mouse, sqrt);
    if distance < Reach then
      var force := Pull(distance);
      PullTowards(dx, force);
      PullTowards(dy, force);
      p.(vx := p.vx + dx * force * Strength, vy := p.vy + dy * force * Strength)
    else
      p
  }

  /** One axis of the pull, `d * force * 0.0001` with `force` in (0, 1]: it
      has the sign of the offset `d`, vanishes exactly when `d` does, and is
      at most 0.0001 times `d` in size. */
  lemma PullTowards(d: real, force: real)
    requires 0.0 < force <= 1.0
    ensures 0.0 <= (d * force * Strength) * d
    ensures d * force * Strength == 0.0 <==> d == 0.0
    ensures Abs(d * force * Strength) <= Strength * Abs(d)
  {
    var c := force * Strength;
    assert d * force * Strength == d * c;
    assert 0.0 < c <= Strength;
    assert 0.0 <= c * (d * d) == (d * c) * d by {
      Square(d);
    }
    var m := Abs(d);
    assert Abs(d * c) == m * c by {
      if d < 0.0 {
        assert d * c == -(m * c);
      }
    }
    assert m * Strength - m * c == m * (Strength - c);
    assert 0.0 <= m * (Strength - c);
  }

  /** The pull is gentle: a frame changes each velocity component by at most
      0.0001 times the particle's offset from the cursor along that axis, so
      a particle drifts toward the cursor and never jumps to it. */
  lemma AttractIsGentle(p: Particle, mouse: Vec, sqrt: real -> real)
    requires NonNegativeRoot(sqrt)
    ensures var q := Attract(p, mouse, sqrt);
      && Abs(q.vx - p.vx) <= Strength * Abs(mouse.x - p.x)
      && Abs(q.vy - p.vy) <= Strength * Abs(mouse.y - p.y)
  {
    var dx, dy := mouse.x - p.x, mouse.y - p.y;
    var q := Attract(p, mouse, sqrt);
    var distance := CursorDistance(p, mouse, sqrt);
    if distance < Reach {
      var force := Pull(distance);
      PullTowards(dx, force);
      PullTowards(dy, force);
      assert q.vx - p.vx == dx * force * Strength && q.vy - p.vy == dy * force * Strength;
    } else {
      assert q == p;
      assert 0.0 <= Strength * Abs(dx) && 0.0 <= Strength * Abs(dy);
    }
  }

  /** The update half of `drawParticles` for one particle: the cursor pull,
      then the move by the (new) velocity, one more unit of life, and the wrap
      at the canvas edges. The particle lands on the CLOSED canvas. */
  function ParticleTick(p: Particle, mouse: Vec, sqrt: real -> real, width: nat, height: nat): (q: Particle)
    requires NonNegativeRoot(sqrt)
    ensures OnCanvas(q.x, q.y, width, height)
    ensures q.life == p.life + 1.0
    ensures q.size == p.size && q.color == p.color && q.alpha == p.alpha
    ensures var a := Attract(p, mouse, sqrt);
      && q.vx == a.vx && q.vy == a.vy
      && (OnCanvas(p.x + a.vx, p.y + a.vy, width, height) ==> q.x == p.x + a.vx && q.y == p.y + a.vy)
    ensures var a := Attract(p, mouse, sqrt);
      WrapsTo(p.x + a.vx, q.x, width as real, 0.0) && WrapsTo(p.y + a.vy, q.y, height as real, 0.0)
  {
    var a := Attract(p, mouse, sqrt);
    a.(x := Wrap(a.x + a.vx, width as real, 0.0),
       y := Wrap(a.y + a.vy, height as real, 0.0),
       life := a.life + 1.0)
  }

  function ParticleTicks(p: Particle, n: nat, mouse: Vec, sqrt: real -> real, width: nat, height: nat): Particle
    requires NonNegativeRoot(sqrt)
  {
    if n == 0 then p else ParticleTick(ParticleTicks(p, n - 1, mouse, sqrt, width, height), mouse, sqrt, width, height)
  }

  /** Over `n` ticks a particle ages by exactly `n` and keeps its size, colour
      and opacity; once it has moved at all it rests on the closed canvas. */
  lemma {:induction false} ParticleAges(p: Particle, n: nat, mouse: Vec, sqrt: real -> real, width: nat, height: nat)
    requires NonNegativeRoot(sqrt)
    ensures var q := ParticleTicks(p, n, mouse, sqrt, width, height);
      && q.life == p.life + n as real
      && q.size == p.size && q.color == p.color && q.alpha == p.alpha
      && (0 < n ==> OnCanvas(q.x, q.y, width, height))
  {
    if n > 0 {
      ParticleAges(p, n - 1, mouse, sqrt, width, height);
    }
  }

  /** A live particle is still live after a tick. */
  lemma TickKeepsLive(p: Particle, mouse: Vec, sqrt: real -> real, width: nat, height: nat)
    requires NonNegativeRoot(sqrt) && Live(p, width, height)
    ensures Live(ParticleTick(p, mouse, sqrt, width, height), width, height)
  {
  }

  /** The drawn opacity `alpha * (sin(time * 0.005 + life * 0.01) * 0.5 + 0.5)`;
      the pulse factor lies in [0, 1], so the opacity is at most the base one. */
  function ParticleOpacity(p: Particle, time: nat, sin: Wave): (a: real)
    ensures 0.0 <= p.alpha ==> 0.0 <= a <= p.alpha
  {
    Attenuate(p.alpha, sin(time as real * 0.005 + p.life * 0.01), 0.5, 0.5)
  }

  // --------------------------------------------------------------- grid lines

  datatype Orientation = Vertical | Horizontal

  /** A grid line: `position` is the x of a vertical line or the y of a
      horizontal one; `offset` is its random phase. */
  datatype GridLine = GridLine(orientation: Orientation, position: int, alpha: real, offset: real)

  const Spacing: nat := 80

  /** The coordinate of the k-th line along its axis. */
  function Position(k: nat): int {
    k * Spacing
  }

  /** How many of 0, 80, 160, ... lie below `extent`: `ceil(extent / 80)`. */
  function LineCount(extent: nat): (n: nat)
    ensures forall k: nat :: k < n <==> Position(k) < extent
  {
    var n := (extent + Spacing - 1) / Spacing;
    forall k: nat ensures k < n <==> Position(k) < extent {
      if k < n {
        assert Position(k) <= Position(n - 1);
      } else {
        assert Position(n) <= Position(k);
      }
    }
    n
  }

  /** The k-th line of one of the two loops, its phase from the first draw of `d`. */
  function SpawnGridLine(orientation: Orientation, k: nat, d: Random): (line: GridLine)
    ensures line.orientation == orientation && line.position == Position(k) && line.alpha == 0.1
    ensures 0.0 <= line.offset < 2.0 * Pi
  {
    GridLine(orientation, Position(k), 0.1, Phase(d(0)))
  }

  /** The lines one of the two `createGridLines` loops produces across
      `extent`, the k-th taking draw k as its phase. */
  function Lines(orientation: Orientation, extent: nat, rand: Random): (ls: seq<GridLine>)
    ensures |ls| == LineCount(extent)
    ensures forall k :: 0 <= k < |ls| ==> ls[k].orientation == orientation && ls[k].alpha == 0.1
    ensures forall k :: 0 <= k < |ls| ==> ls[k].position == Position(k) < extent
    ensures forall k :: 0 <= k < |ls| ==> 0.0 <= ls[k].offset < 2.0 * Pi
  {
    seq(LineCount(extent), k requires 0 <= k => SpawnGridLine(orientation, k, Skip(rand, k)))
  }

  /** `createGridLines`: every vertical line, then every horizontal one. */
  function GridLines(width: nat, height: nat, rand: Random): (ls: seq<GridLine>)
    ensures |ls| == LineCount(width) + LineCount(height)
    ensures forall k :: 0 <= k < |ls| ==> (ls[k].orientation == Vertical <==> k < LineCount(width))
    ensures forall k :: 0 <= k < |ls| ==>
      ls[k].position == Position(if k < LineCount(width) then k else k - LineCount(width))
    ensures forall k :: 0 <= k < |ls| ==>
      && 0 <= ls[k].position
      && ls[k].position % Spacing == 0
      && ls[k].position < (if ls[k].orientation == Vertical then width else height)
      && ls[k].alpha == 0.1
  {
    Lines(Vertical, width, rand) + Lines(Horizontal, height, Skip(rand, LineCount(width)))
  }

  /** The two counting loops of `createGridLines`, stepping a coordinate by 80
      while it stays below the extent; they build exactly `GridLines`. */
  method CreateGridLines(width: nat, height: nat, rand: Random) returns (lines: seq<GridLine>)
    ensures lines == GridLines(width, height, rand)
  {
    ghost var vertical := Lines(Vertical, width, rand);
    lines := [];
    var x := 0;
    while x < width
      invariant |lines| <= |vertical|
      invariant x == Position(|lines|)
      invariant lines == vertical[..|lines|]
    {
      lines := lines + [SpawnGridLine(Vertical, |lines|, Skip(rand, |lines|))];
      x := x + Spacing;
    }
    var made := 0;
    var rest := Skip(rand, |lines|);
    ghost var horizontal := Lines(Horizontal, height, rest);
    var y := 0;
    while y < height
      invariant made <= |horizontal| && |lines| == |vertical| + made
      invariant y == Position(made)
      invariant lines == vertical + horizontal[..made]
    {
      lines := lines + [SpawnGridLine(Horizontal, made, Skip(rest, made))];
      made := made + 1;
      y := y + Spacing;
    }
  }

  /** The brightness factor `sin(time * 0.003 + offset) * 0.5 + 0.5` each grid
      line is drawn with, times its base opacity 0.1. */
  function GridLineOpacity(line: GridLine, time: nat, sin: Wave): (a: real)
    ensures 0.0 <= line.alpha ==> 0.0 <= a <= line.alpha
  {
    Attenuate(line.alpha, sin(time as real * 0.003 + line.offset), 0.5, 0.5)
  }

  // ------------------------------------------------------------------- shapes

  datatype ShapeKind = WireframeSphere | GlassyCube | Origami

  const ShapeKinds: seq<ShapeKind> := [WireframeSphere, GlassyCube, Origami]

  datatype Shape = Shape(
    kind: ShapeKind, x: real, y: real, size: real,
    rotation: real, rotationSpeed: real, alpha: real, drift: Vec)

  const ShapeCount: nat := 6

  /** Draws per shape: kind, x, y, size, rotation speed, drift x, drift y. */
  const ShapeDraws: nat := 7

  /** How far past the canvas edge a shape may travel before it wraps. */
  const Margin: real := 100.0

  /** The ranges `createShapes` draws every field from. */
  predicate SpawnedShape(s: Shape, width: nat, height: nat) {
    && 0.0 <= s.x <= width as real && (0 < width ==> s.x < width as real)
    && 0.0 <= s.y <= height as real && (0 < height ==> s.y < height as real)
    && 30.0 <= s.size < 90.0
    && s.rotation == 0.0
    && -0.01 <= s.rotationSpeed < 0.01
    && s.alpha == 0.3
    && -0.15 <= s.drift.x < 0.15 && -0.15 <= s.drift.y < 0.15
  }

  function SpawnShape(width: nat, height: nat, d: Random): (s: Shape)
    ensures SpawnedShape(s, width, height)
  {
    Shape(
      ShapeKinds[Pick(d(0), |ShapeKinds|)],
      Scale(d(1), width as real), Scale(d(2), height as real),
      d(3) * 60.0 + 30.0, 0.0, (d(4) - 0.5) * 0.02, 0.3,
      Vec((d(5) - 0.5) * 0.3, (d(6) - 0.5) * 0.3))
  }

  /** `createShapes`: six shapes, the k-th built from draws 7k .. 7k+6. */
  function CreateShapes(width: nat, height: nat, rand: Random): (ss: seq<Shape>)
    ensures |ss| == ShapeCount
    ensures forall k :: 0 <= k < |ss| ==> SpawnedShape(ss[k], width, height)
  {
    seq(ShapeCount, k requires 0 <= k => SpawnShape(width, height, Skip(rand, ShapeDraws * k)))
  }

  /** The update half of `drawShapes` for one shape: turn by the rotation
      speed, move by the fixed drift, wrap with the 100-unit margin. */
  function ShapeTick(s: Shape, width: nat, height: nat): (t: Shape)
    ensures InBand(t.x, t.y, width, height, Margin)
    ensures t.rotation == s.rotation + s.rotationSpeed
    ensures t == s.(x := t.x, y := t.y, rotation := t.rotation)
    ensures InBand(s.x + s.drift.x, s.y + s.drift.y, width, height, Margin) ==>
      t.x == s.x + s.drift.x && t.y == s.y + s.drift.y
    ensures WrapsTo(s.x + s.drift.x, t.x, width as real, Margin) && WrapsTo(s.y + s.drift.y, t.y, height as real, Margin)
  {
    s.(rotation := s.rotation + s.rotationSpeed,
       x := Wrap(s.x + s.drift.x, width as real, Margin),
       y := Wrap(s.y + s.drift.y, height as real, Margin))
  }
  function ShapeTicks(s: Shape, n: nat, width: nat, height: nat): Shape {
    if n == 0 then s else ShapeTick(ShapeTicks(s, n - 1, width, height), width, height)
  }

  /** Over `n` ticks a shape turns by exactly `n` times its rotation speed,
      changes nothing but its position and angle, and once it has moved at all
      lies within the margin band. */
  lemma {:induction false} ShapeTurns(s: Shape, n: nat, width: nat, height: nat)
    ensures var t := ShapeTicks(s, n, width, height);
      && t.rotation == s.rotation + n as real * s.rotationSpeed
      && t == s.(x := t.x, y := t.y, rotation := t.rotation)
      && (0 < n ==> InBand(t.x, t.y, width, height, Margin))
  {
    if n > 0 {
      ShapeTurns(s, n - 1, width, height);
      assert (n - 1) as real * s.rotationSpeed + s.rotationSpeed == n as real * s.rotationSpeed;
    }
  }


  // ------------------------------------------------------------------ ribbons

  datatype RibbonPoint = RibbonPoint(x: real, y: real, originalY: real)

  datatype Ribbon = Ribbon(points: seq<RibbonPoint>, color: string, alpha: real, wave: real, amplitude: real)

  const RibbonCount: nat := 3
  const Segments: nat := 20

  /** Draws per ribbon: colour, wave phase, amplitude. */
  const RibbonDraws: nat := 3

  /** The per-frame advance of a ribbon's wave phase. */
  const WaveStep: real := 0.02

  /** A point displaced from its rest height by at most the amplitude. */
  predicate WithinAmplitude(p: RibbonPoint, amplitude: real) {
    -Abs(amplitude) <= p.y - p.originalY <= Abs(amplitude)
  }

  /** The inner loop of `createRibbons`: 20 points evenly spaced from x = 0 in
      steps of width / 20, each resting at half height plus up to 100. */
  function RibbonPoints(width: nat, height: nat, sin: Wave): (pts: seq<RibbonPoint>)
    ensures |pts| == Segments
    ensures pts[0].x == 0.0
    ensures forall j :: 0 < j < |pts| ==> pts[j].x - pts[j - 1].x == width as real / Segments as real
    ensures forall j :: 0 <= j < |pts| ==>
      && 0.0 <= pts[j].x <= width as real && (0 < width ==> pts[j].x < width as real)
      && pts[j].y == pts[j].originalY
      && height as real * 0.5 - 100.0 <= pts[j].originalY <= height as real * 0.5 + 100.0
  {
    seq(Segments, j requires 0 <= j < Segments =>
      var originalY := height as real * 0.5 + Modulate(sin(j as real * 0.5), 100.0, 0.0);
      RibbonPoint(SegmentX(j, width), originalY, originalY))
  }

  /** `(j / 20) * width`. */
  function SegmentX(j: nat, width: nat): (x: real)
    requires j < Segments
    ensures 0.0 <= x <= width as real && (0 < width ==> x < width as real)
  {
    var fraction: Draw := j as real / 20.0;
    Scale(fraction, width as real)
  }

  /** Ribbon x coordinates strictly increase along the ribbon on a canvas of
      positive width. */
  lemma {:induction false} RibbonPointsIncrease(width: nat, height: nat, sin: Wave, i: nat, j: nat)
    requires 0 < width && i < j < Segments
    ensures RibbonPoints(width, height, sin)[i].x < RibbonPoints(width, height, sin)[j].x
    decreases j - i
  {
    if i + 1 < j {
      RibbonPointsIncrease(width, height, sin, i, j - 1);
    }
  }

  function SpawnRibbon(width: nat, height: nat, sin: Wave, d: Random): (r: Ribbon)
    ensures |r.points| == Segments
    ensures r.color in NeonPalette && r.alpha == 0.15
    ensures 0.0 <= r.wave < 2.0 * Pi
    ensures 50.0 <= r.amplitude < 100.0
    ensures forall j :: 0 <= j < |r.points| ==> r.points[j].y == r.points[j].originalY
  {
    Ribbon(RibbonPoints(width, height, sin), NeonColor(d(0)), 0.15, Phase(d(1)), 50.0 + d(2) * 50.0)
  }

  /** `createRibbons`: three ribbons of twenty points each. */
  function CreateRibbons(width: nat, height: nat, sin: Wave, rand: Random): (rs: seq<Ribbon>)
    ensures |rs| == RibbonCount
    ensures forall k :: 0 <= k < |rs| ==>
      && |rs[k].points| == Segments
      && rs[k].color in NeonPalette && rs[k].alpha == 0.15
      && 0.0 <= rs[k].wave < 2.0 * Pi
      && 50.0 <= rs[k].amplitude < 100.0
      && forall j :: 0 <= j < |rs[k].points| ==> WithinAmplitude(rs[k].points[j], rs[k].amplitude)
  {
    seq(RibbonCount, k requires 0 <= k => SpawnRibbon(width, height, sin, Skip(rand, RibbonDraws * k)))
  }

  /** The update half of `drawRibbons` for one ribbon: the wave phase grows by
      0.02 and every point is re-placed at its rest height plus
      `sin(wave + index * 0.3) * amplitude`; x and rest heights never move. */
  function RibbonTick(r: Ribbon, sin: Wave): (t: Ribbon)
    ensures t.wave == r.wave + WaveStep
    ensures t == r.(points := t.points, wave := t.wave)
    ensures |t.points| == |r.points|
    ensures forall k :: 0 <= k < |t.points| ==>
      && t.points[k].x == r.points[k].x
      && t.points[k].originalY == r.points[k].originalY
      && WithinAmplitude(t.points[k], r.amplitude)
  {
    var wave := r.wave + WaveStep;
    r.(wave := wave,
       points := seq(|r.points|, k requires 0 <= k < |r.points| =>
         r.points[k].(y := r.points[k].originalY + Oscillate(sin(wave + k as real * 0.3), r.amplitude))))
  }

  function RibbonTicks(r: Ribbon, n: nat, sin: Wave): Ribbon {
    if n == 0 then r else RibbonTick(RibbonTicks(r, n - 1, sin), sin)
  }

  /** After any number of frames a ribbon keeps its points' x and rest heights,
      its phase has grown by 0.02 per frame, and once it has moved at all every
      point lies within the amplitude of its rest height. */
  lemma {:induction false} RibbonStaysInBand(r: Ribbon, n: nat, sin: Wave)
    ensures var t := RibbonTicks(r, n, sin);
      && t.wave == r.wave + WaveStep * n as real
      && t.amplitude == r.amplitude
      && |t.points| == |r.points|
      && (forall k :: 0 <= k < |t.points| ==>
            t.points[k].x == r.points[k].x && t.points[k].originalY == r.points[k].originalY)
      && (0 < n ==> forall k :: 0 <= k < |t.points| ==> WithinAmplitude(t.points[k], r.amplitude))
  {
    if n > 0 {
      RibbonStaysInBand(r, n - 1, sin);
    }
  }

  // -------------------------------------------------------------------- scene

  /** Everything the component keeps between frames. */
  datatype Scene = Scene(
    width: nat, height: nat, time: nat, mouse: Vec,
    particles: seq<Particle>, gridLines: seq<GridLine>,
    shapes: seq<Shape>, ribbons: seq<Ribbon>)

  /** The frame invariant: particles live on the closed canvas, shapes stay
      within the margin band, ribbon points within their amplitude. */
  predicate Valid(s: Scene) {
    && (forall k :: 0 <= k < |s.particles| ==> Live(s.particles[k], s.width, s.height))
    && (forall k :: 0 <= k < |s.shapes| ==> InBand(s.shapes[k].x, s.shapes[k].y, s.width, s.height, Margin))
    && (forall k, j :: 0 <= k < |s.ribbons| && 0 <= j < |s.ribbons[k].points| ==>
          WithinAmplitude(s.ribbons[k].points[j], s.ribbons[k].amplitude))
  }

  /** `handleResize`: the canvas takes the new size and every collection is
      rebuilt from fresh draws, in the order particles, grid lines, shapes,
      ribbons; the clock and the cursor are kept. */
  function Resize(s: Scene, width: nat, height: nat, rand: Random, sin: Wave): (r: Scene)
    ensures r.width == width && r.height == height
    ensures r.time == s.time && r.mouse == s.mouse
    ensures |r.particles| == ParticleCount && |r.shapes| == ShapeCount && |r.ribbons| == RibbonCount
    ensures |r.gridLines| == LineCount(width) + LineCount(height)
    ensures forall k :: 0 <= k < |r.particles| ==> Spawned(r.particles[k], width, height)
    ensures forall k :: 0 <= k < |r.gridLines| ==>
      && (r.gridLines[k].orientation == Vertical <==> k < LineCount(width))
      && r.gridLines[k].position == Position(if k < LineCount(width) then k else k - LineCount(width))
      && r.gridLines[k].alpha == 0.1
    ensures forall k :: 0 <= k < |r.shapes| ==> SpawnedShape(r.shapes[k], width, height)
    ensures forall k :: 0 <= k < |r.ribbons| ==>
      && |r.ribbons[k].points| == Segments
      && r.ribbons[k].color in NeonPalette && r.ribbons[k].alpha == 0.15
      && 0.0 <= r.ribbons[k].wave < 2.0 * Pi
      && 50.0 <= r.ribbons[k].amplitude < 100.0
    ensures Valid(r)
  {
    var particles := CreateParticles(width, height, rand);
    var used := ParticleDraws * ParticleCount;
    var gridLines := GridLines(width, height, Skip(rand, used));
    var shapes := CreateShapes(width, height, Skip(rand, used + |gridLines|));
    var ribbons := CreateRibbons(width, height, sin, Skip(rand, used + |gridLines| + ShapeDraws * ShapeCount));
    forall k | 0 <= k < |particles| ensures Live(particles[k], width, height) {
      SpawnedIsLive(particles[k], width, height);
    }
    Scene(width, height, s.time, s.mouse, particles, gridLines, shapes, ribbons)
  }

  /** Nothing of the scene before a resize survives it but the clock and the
      cursor: two scenes resized alike hold the same entities. */
  lemma ResizeDiscardsEntities(s1: Scene, s2: Scene, width: nat, height: nat, rand: Random, sin: Wave)
    ensures Resize(s1, width, height, rand, sin).(time := 0, mouse := Vec(0.0, 0.0))
         == Resize(s2, width, height, rand, sin).(time := 0, mouse := Vec(0.0, 0.0))
  {
  }

  /** `animateFrame` without the drawing: the clock ticks, then ribbons, shapes
      and particles are advanced in that order; grid lines never move. */
  function Frame(s: Scene, sqrt: real -> real, sin: Wave): (r: Scene)
    requires NonNegativeRoot(sqrt)
    ensures r.time == s.time + 1
    ensures r == s.(time := r.time, particles := r.particles, shapes := r.shapes, ribbons := r.ribbons)
    ensures |r.particles| == |s.particles| && |r.shapes| == |s.shapes| && |r.ribbons| == |s.ribbons|
    ensures forall k {:trigger r.ribbons[k]} :: 0 <= k < |r.ribbons| ==> r.ribbons[k] == RibbonTick(s.ribbons[k], sin)
    ensures forall k {:trigger r.shapes[k]} :: 0 <= k < |r.shapes| ==> r.shapes[k] == ShapeTick(s.shapes[k], s.width, s.height)
    ensures forall k {:trigger r.particles[k]} :: 0 <= k < |r.particles| ==>
      r.particles[k] == ParticleTick(s.particles[k], s.mouse, sqrt, s.width, s.height)
    ensures Valid(s) ==> Valid(r)
  {
    var ribbons := seq(|s.ribbons|, k requires 0 <= k < |s.ribbons| => RibbonTick(s.ribbons[k], sin));
    var shapes := seq(|s.shapes|, k requires 0 <= k < |s.shapes| => ShapeTick(s.shapes[k], s.width, s.height));
    var particles := seq(|s.particles|, k requires 0 <= k < |s.particles| =>
      ParticleTick(s.particles[k], s.mouse, sqrt, s.width, s.height));
    s.(time := s.time + 1, ribbons := ribbons, shapes := shapes, particles := particles)
  }

  function Frames(s: Scene, n: nat, sqrt: real -> real, sin: Wave): Scene
    requires NonNegativeRoot(sqrt)
  {
    if n == 0 then s else Frame(Frames(s, n - 1, sqrt, sin), sqrt, sin)
  }

  /** However many frames follow a valid scene, every particle is on the
      closed canvas, every shape within the margin band and every ribbon point
      within its amplitude; the canvas size is untouched and the clock has
      advanced once per frame. */
  lemma {:induction false} FramesKeepValid(s: Scene, n: nat, sqrt: real -> real, sin: Wave)
    requires NonNegativeRoot(sqrt) && Valid(s)
    ensures Valid(Frames(s, n, sqrt, sin))
    ensures Frames(s, n, sqrt, sin).width == s.width && Frames(s, n, sqrt, sin).height == s.height
    ensures Frames(s, n, sqrt, sin).time == s.time + n
  {
    if n > 0 {
      FramesKeepValid(s, n - 1, sqrt, sin);
    }
  }

  /** Frames act on every entity independently: `n` frames leave the canvas,
      the cursor and the grid lines alone and put in every slot exactly what
      `n` ticks make of the ribbon, shape or particle that started there. */
  lemma {:induction false} FramesTickEachEntity(s: Scene, n: nat, sqrt: real -> real, sin: Wave)
    requires NonNegativeRoot(sqrt)
    ensures var t := Frames(s, n, sqrt, sin);
      && t.width == s.width && t.height == s.height && t.mouse == s.mouse && t.gridLines == s.gridLines
      && |t.particles| == |s.particles| && |t.shapes| == |s.shapes| && |t.ribbons| == |s.ribbons|
      && (forall k :: 0 <= k < |t.ribbons| ==> t.ribbons[k] == RibbonTicks(s.ribbons[k], n, sin))
      && (forall k :: 0 <= k < |t.shapes| ==> t.shapes[k] == ShapeTicks(s.shapes[k], n, s.width, s.height))
      && (forall k :: 0 <= k < |t.particles| ==>
            t.particles[k] == ParticleTicks(s.particles[k], n, s.mouse, sqrt, s.width, s.height))
  {
    if n > 0 {
      FramesTickEachEntity(s, n - 1, sqrt, sin);
      var u := Frames(s, n - 1, sqrt, sin);
      var t := Frame(u, sqrt, sin);
      forall k | 0 <= k < |t.ribbons|
        ensures t.ribbons[k] == RibbonTicks(s.ribbons[k], n, sin)
      {
        var before := RibbonTicks(s.ribbons[k], n - 1, sin);
        assert u.ribbons[k] == before;
        assert t.ribbons[k] == RibbonTick(before, sin);
      }
      forall k | 0 <= k < |t.shapes|
        ensures t.shapes[k] == ShapeTicks(s.shapes[k], n, s.width, s.height)
      {
        var before := ShapeTicks(s.shapes[k], n - 1, s.width, s.height);
        assert u.shapes[k] == before;
        assert t.shapes[k] == ShapeTick(before, s.width, s.height);
      }
      forall k | 0 <= k < |t.particles|
        ensures t.particles[k] == ParticleTicks(s.particles[k], n, s.mouse, sqrt, s.width, s.height)
      {
        var before := ParticleTicks(s.particles[k], n - 1, s.mouse, sqrt, s.width, s.height);
        assert u.particles[k] == before;
        assert t.particles[k] == ParticleTick(before, s.mouse, sqrt, s.width, s.height);
      }
    }
  }

  /** After a resize and any number of frames, every particle is drawn with an
      opacity in [0, 1]. */
  lemma OpacityStaysInUnitInterval(s: Scene, width: nat, height: nat, rand: Random, n: nat, sqrt: real -> real, sin: Wave)
    requires NonNegativeRoot(sqrt)
    ensures var t := Frames(Resize(s, width, height, rand, sin), n, sqrt, sin);
      forall k :: 0 <= k < |t.particles| ==> 0.0 <= ParticleOpacity(t.particles[k], t.time, sin) <= 1.0
  {
    var r := Resize(s, width, height, rand, sin);
    FramesKeepValid(r, n, sqrt, sin);
    ValidOpacity(Frames(r, n, sqrt, sin), sin);
  }

  /** Every particle of a valid scene is drawn with opacity in [0, 1]. */
  lemma ValidOpacity(s: Scene, sin: Wave)
    requires Valid(s)
    ensures forall k :: 0 <= k < |s.particles| ==> 0.0 <= ParticleOpacity(s.particles[k], s.time, sin) <= 1.0
  {
    forall k | 0 <= k < |s.particles|
      ensures 0.0 <= ParticleOpacity(s.particles[k], s.time, sin) <= 1.0
    {
      assert Live(s.particles[k], s.width, s.height);
    }
  }
}

=== FILE: hero_background_simple.dfy ===
/** The simplified hero background: pulsing neon dots over a grid of diagonal
    lines whose opacity waves and flows with a fractional clock. The bands of
    waves near the bottom hold no state and are not modelled. */
module HeroBackgroundSimple {
  import opened Common

  // ---------------------------------------------------------------- particles

  const ParticleCount: nat := 60

  /** Draws per particle: x, y, vx, vy, size, colour, alpha, pulse. */
  const ParticleDraws: nat := 8

  /** The per-frame advance of a particle's pulse phase. */
  const PulseStep: real := 0.05

  /** The ranges `createParticles` draws every field from. The base opacity
      reaches up to 1.2, above the [0, 1] a canvas opacity lives in. */
  predicate Spawned(p: PulsingParticle, width: nat, height: nat) {
    && 0.0 <= p.x <= width as real && (0 < width ==> p.x < width as real)
    && 0.0 <= p.y <= height as real && (0 < height ==> p.y < height as real)
    && -0.4 <= p.vx < 0.4 && -0.4 <= p.vy < 0.4
    && 2.0 <= p.size < 6.0
    && p.color in NeonPalette
    && 0.3 <= p.alpha < 1.2
    && 0.0 <= p.pulse < 2.0 * Pi
  }

  /** What stays true of a particle frame after frame. */
  predicate Live(p: PulsingParticle, width: nat, height: nat) {
    && OnCanvas(p.x, p.y, width, height)
    && 2.0 <= p.size < 6.0
    && p.color in NeonPalette
    && 0.3 <= p.alpha < 1.2
  }

  function SpawnParticle(width: nat, height: nat, d: Random): (p: PulsingParticle)
    ensures Spawned(p, width, height)
  {
    PulsingParticle(
      Scale(d(0), width as real), Scale(d(1), height as real),
      (d(2) - 0.5) * 0.8, (d(3) - 0.5) * 0.8,
      d(4) * 4.0 + 2.0, NeonColor(d(5)),
      d(6) * 0.9 + 0.3, Phase(d(7)))
  }

  /** `createParticles`: the old particles are dropped and 60 new ones are
      made, the k-th from draws 8k .. 8k+7. */
  function CreateParticles(width: nat, height: nat, rand: Random): (ps: seq<PulsingParticle>)
    ensures |ps| == ParticleCount
    ensures forall k :: 0 <= k < |ps| ==> Spawned(ps[k], width, height)
  {
    seq(ParticleCount, k requires 0 <= k => SpawnParticle(width, height, Skip(rand, ParticleDraws * k)))
  }

  /** Exactly the draws above 7/9 give a particle a base opacity above 1. */
  lemma AlphaAboveOne(width: nat, height: nat, d: Random)
    ensures SpawnParticle(width, height, d).alpha > 1.0 <==> d(6) > 7.0 / 9.0
  {
  }

  /** A particle from such a draw is drawn, at the crest of its pulse, with
      an opacity above 1. */
  lemma OpacityCanExceedOne()
    ensures PulseOpacity(SpawnParticle(1, 1, _ => 0.9), _ => 1.0) > 1.0
  {
    var p := SpawnParticle(1, 1, _ => 0.9);
    assert p.alpha == 0.9 * 0.9 + 0.3;
  }

  /** The update half of the particle loop in `animate`: move, advance the
      pulse by 0.05, wrap at the canvas edges onto the closed canvas. */
  function ParticleTick(p: PulsingParticle, width: nat, height: nat): (q: PulsingParticle)
    ensures OnCanvas(q.x, q.y, width, height)
    ensures q.pulse == p.pulse + PulseStep
    ensures q.vx == p.vx && q.vy == p.vy && q.size == p.size && q.color == p.color && q.alpha == p.alpha
    ensures WrapsTo(p.x + p.vx, q.x, width as real, 0.0) && WrapsTo(p.y + p.vy, q.y, height as real, 0.0)
  {
    Glide(p, width, height, PulseStep)
  }

  // ------------------------------------------------------------ diagonal grid

  datatype Direction = DiagonalRight | DiagonalLeft

  datatype DiagonalLine = DiagonalLine(
    direction: Direction, offset: real, alpha: real, animOffset: real, flowOffset: real)

  /** The distance between neighbouring parallel lines. */
  const GridSize: real := 120.0

  /** The opacity every grid line is created with. */
  const LineAlpha: real := 0.08

  /** Draws per grid line: animation phase, flow offset. */
  const LineDraws: nat := 2

  /** The length of the canvas diagonal, `sqrt(width * width + height * height)`. */
  function Diagonal(width: nat, height: nat, sqrt: real -> real): (d: real)
    requires NonNegativeRoot(sqrt)
    ensures 0.0 <= d
  {
    var w, h := width as real, height as real;
    Square(w);
    Square(h);
    sqrt(w * w + h * h)
  }

  /** The offset the loop counter holds on its k-th pass: it starts at
      `-diagonal` and grows by `GridSize` per pass. */
  function Offset(k: nat, diagonal: real): real {
    -diagonal + k as real * 120.0
  }

  /** How many passes each loop of `createDiagonalGrid` makes: the passes
      whose offset is still below `diagonal`. */
  function DiagonalCount(diagonal: real): (n: nat)
    requires 0.0 <= diagonal
    ensures forall k: nat :: k < n <==> Offset(k, diagonal) < diagonal
  {
    var q := diagonal / 60.0;
    var f := q.Floor;
    var n: nat := if f as real == q then f else f + 1;
    forall k: nat
      ensures k < n <==> Offset(k, diagonal) < diagonal
    {
      assert Offset(k, diagonal) < diagonal <==> k as real < q;
    }
    n
  }

  /** One grid line, its phases taken from the first two draws of `d`. */
  function SpawnLine(direction: Direction, offset: real, d: Random): (line: DiagonalLine)
    ensures line.direction == direction && line.offset == offset && line.alpha == LineAlpha
    ensures 0.0 <= line.animOffset < 2.0 * Pi && 0.0 <= line.flowOffset < 1000.0
  {
    DiagonalLine(direction, offset, LineAlpha, Phase(d(0)), Scale(d(1), 1000.0))
  }

  /** The lines one loop creates, when `first` lines were created before it. */
  function Lines(direction: Direction, diagonal: real, rand: Random, first: nat): (ls: seq<DiagonalLine>)
    requires 0.0 <= diagonal
    ensures |ls| == DiagonalCount(diagonal)
    ensures forall k :: 0 <= k < |ls| ==>
      && ls[k].direction == direction && ls[k].offset == Offset(k, diagonal)
      && -diagonal <= ls[k].offset < diagonal
      && ls[k].alpha == LineAlpha
      && 0.0 <= ls[k].animOffset < 2.0 * Pi && 0.0 <= ls[k].flowOffset < 1000.0
  {
    seq(DiagonalCount(diagonal), k requires 0 <= k =>
      SpawnLine(direction, Offset(k, diagonal), Skip(rand, LineDraws * (first + k))))
  }

  /** `createDiagonalGrid` as a value: the old lines are dropped, then one
      loop makes the lines running down to the right, and a second loop the
      same number running down to the left, at the same offsets. */
  function DiagonalGrid(width: nat, height: nat, sqrt: real -> real, rand: Random): (grid: seq<DiagonalLine>)
    requires NonNegativeRoot(sqrt)
    ensures |grid| == 2 * DiagonalCount(Diagonal(width, height, sqrt))
    ensures var n := DiagonalCount(Diagonal(width, height, sqrt));
      forall k :: 0 <= k < |grid| ==> (grid[k].direction == DiagonalRight <==> k < n)
    ensures var n := DiagonalCount(Diagonal(width, height, sqrt));
      forall k :: 0 <= k < n ==> grid[k].offset == grid[n + k].offset == Offset(k, Diagonal(width, height, sqrt))
    ensures forall k :: 0 <= k < |grid| ==>
      && -Diagonal(width, height, sqrt) <= grid[k].offset < Diagonal(width, height, sqrt)
      && grid[k].alpha == LineAlpha
      && 0.0 <= grid[k].animOffset < 2.0 * Pi && 0.0 <= grid[k].flowOffset < 1000.0
  {
    var diagonal := Diagonal(width, height, sqrt);
    var n := DiagonalCount(diagonal);
    var right := Lines(DiagonalRight, diagonal, rand, 0);
    var left := Lines(DiagonalLeft, diagonal, rand, n);
    right + left
  }

  /** One loop of `createDiagonalGrid`: a counter that starts at `-diagonal`
      and grows by 120 while it stays below `diagonal`, appending one line per
      pass to the lines already made. */
  method AppendLines(made: seq<DiagonalLine>, direction: Direction, diagonal: real, rand: Random)
    returns (grid: seq<DiagonalLine>)
    requires 0.0 <= diagonal
    ensures grid == made + Lines(direction, diagonal, rand, |made|)
  {
    ghost var lines := Lines(direction, diagonal, rand, |made|);
    grid := made;
    var i := -diagonal;
    while i < diagonal
      invariant |made| <= |grid| <= |made| + |lines|
      invariant i == Offset(|grid| - |made|, diagonal)
      invariant grid == made + lines[..|grid| - |made|]
      decreases |made| + |lines| - |grid|
    {
      assert lines[|grid| - |made|] == SpawnLine(direction, i, Skip(rand, LineDraws * |grid|));
      grid := grid + [SpawnLine(direction, i, Skip(rand, LineDraws * |grid|))];
      i := i + GridSize;
    }
  }

  /** `createDiagonalGrid` as the source writes it: the right-running loop
      and then the left-running loop, each drawing on after the lines before it. */
  method CreateDiagonalGrid(width: nat, height: nat, sqrt: real -> real, rand: Random)
    returns (grid: seq<DiagonalLine>)
    requires NonNegativeRoot(sqrt)
    ensures grid == DiagonalGrid(width, height, sqrt, rand)
  {
    var diagonal := Diagonal(width, height, sqrt);
    grid := AppendLines([], DiagonalRight, diagonal, rand);
    assert grid == Lines(DiagonalRight, diagonal, rand, 0);
    grid := AppendLines(grid, DiagonalLeft, diagonal, rand);
  }

  /** Where a line is stroked: from the top edge to the bottom edge. */
  datatype Segment = Segment(start: Vec, end: Vec)

  /** A line running down to the right starts at `offset` on the top edge; one
      running down to the left starts at `width - offset`. */
  function Stroke(line: DiagonalLine, width: nat, height: nat): (s: Segment)
    ensures s.start.y == 0.0 && s.end.y == height as real
    ensures Abs(s.end.x - s.start.x) == height as real
    ensures line.direction == DiagonalRight ==> s.start.x == line.offset && s.end.x >= s.start.x
    ensures line.direction == DiagonalLeft ==> s.start.x == width as real - line.offset && s.end.x <= s.start.x
  {
    var w, h := width as real, height as real;
    match line.direction
    case DiagonalRight => Segment(Vec(line.offset, 0.0), Vec(line.offset + h, h))
    case DiagonalLeft => Segment(Vec(w - line.offset, 0.0), Vec(w - line.offset - h, h))
  }

  /** The two families are mirror images: at equal offsets, a line running
      down to the left is the reflection of one running down to the right in
      the vertical through the canvas centre. */
  lemma StrokesMirror(right: DiagonalLine, left: DiagonalLine, width: nat, height: nat)
    requires right.direction == DiagonalRight && left.direction == DiagonalLeft
    requires right.offset == left.offset
    ensures var r, l := Stroke(right, width, height), Stroke(left, width, height);
      && l.start == Vec(width as real - r.start.x, r.start.y)
      && l.end == Vec(width as real - r.end.x, r.end.y)
  {
  }

  /** The colours grid lines cycle through, by their position in the grid. */
  const GridPalette: seq<string> := ["#00ffff", "#ff1493", "#ffd700"]

  function GridColor(index: nat): (c: string)
    ensures c in GridPalette
  {
    GridPalette[index % |GridPalette|]
  }

  /** The grid colours repeat every three lines. */
  lemma GridColorPeriodic(index: nat)
    ensures GridColor(index + 3) == GridColor(index)
  {
  }

  /** Neighbouring lines in the grid never share a colour. */
  lemma NeighbouringColorsDiffer(index: nat)
    ensures GridColor(index) != GridColor(index + 1)
  {
  }

  /** The opacity a grid line is stroked with at clock `time`: its base
      opacity times the wave `sin(time * 40 + animOffset) * 0.4 + 0.6`, in
      [0.2, 1], times the flow `sin((time * 80 + flowOffset) * 0.008) * 0.3 + 0.7`,
      in [0.4, 1]. */
  function LineOpacity(line: DiagonalLine, time: real, sin: Wave): (a: real)
    ensures 0.0 <= line.alpha ==> line.alpha * 0.08 <= a <= line.alpha
  {
    var waved := Attenuate(line.alpha, sin(time * 40.0 + line.animOffset), 0.4, 0.6);
    Attenuate(waved, sin((time * 80.0 + line.flowOffset) * 0.008), 0.3, 0.7)
  }

  // -------------------------------------------------------------------- scene

  /** The clock step per frame. */
  const Tick: real := 0.01

  datatype Scene = Scene(
    width: nat, height: nat, time: real,
    particles: seq<PulsingParticle>, grid: seq<DiagonalLine>)

  /** The frame invariant: live particles on the closed canvas, grid lines
      with their creation opacity. */
  predicate Valid(s: Scene) {
    && (forall k :: 0 <= k < |s.particles| ==> Live(s.particles[k], s.width, s.height))
    && (forall k :: 0 <= k < |s.grid| ==> s.grid[k].alpha == LineAlpha)
  }

  /** `handleResize`: the canvas takes the new size, the particles and then
      the grid are rebuilt from fresh draws; the clock is kept. */
  function Resize(s: Scene, width: nat, height: nat, sqrt: real -> real, rand: Random): (r: Scene)
    requires NonNegativeRoot(sqrt)
    ensures r.width == width && r.height == height && r.time == s.time
    ensures |r.particles| == ParticleCount
    ensures forall k :: 0 <= k < |r.particles| ==> Spawned(r.particles[k], width, height)
    ensures |r.grid| == 2 * DiagonalCount(Diagonal(width, height, sqrt))
    ensures var n := DiagonalCount(Diagonal(width, height, sqrt));
      forall k :: 0 <= k < |r.grid| ==> (r.grid[k].direction == DiagonalRight <==> k < n)
    ensures var n := DiagonalCount(Diagonal(width, height, sqrt));
      forall k :: 0 <= k < n ==> r.grid[k].offset == r.grid[n + k].offset == Offset(k, Diagonal(width, height, sqrt))
    ensures Valid(r)
  {
    var particles := CreateParticles(width, height, rand);
    var grid := DiagonalGrid(width, height, sqrt, Skip(rand, ParticleDraws * ParticleCount));
    Scene(width, height, s.time, particles, grid)
  }

  /** Nothing of the scene before a resize survives it but the clock: two
      scenes resized to the same size from the same draws differ at most in
      their clocks. */
  lemma ResizeDiscardsEntities(s1: Scene, s2: Scene, width: nat, height: nat, sqrt: real -> real, rand: Random)
    requires NonNegativeRoot(sqrt)
    ensures Resize(s1, width, height, sqrt, rand).(time := 0.0) == Resize(s2, width, height, sqrt, rand).(time := 0.0)
  {
  }

  /** `animate` without the drawing: the clock advances by 0.01 and every
      particle is advanced once; the grid is only redrawn. */
  function Frame(s: Scene): (r: Scene)
    ensures r.time == s.time + Tick
    ensures r.width == s.width && r.height == s.height && r.grid == s.grid
    ensures |r.particles| == |s.particles|
    ensures forall k {:trigger r.particles[k]} :: 0 <= k < |r.particles| ==>
      r.particles[k] == ParticleTick(s.particles[k], s.width, s.height)
    ensures Valid(s) ==> Valid(r)
  {
    var particles := seq(|s.particles|, k requires 0 <= k < |s.particles| =>
      ParticleTick(s.particles[k], s.width, s.height));
    Scene(s.width, s.height, s.time + Tick, particles, s.grid)
  }

  function Frames(s: Scene, n: nat): Scene {
    if n == 0 then s else Frame(Frames(s, n - 1))
  }

  /** Every frame keeps the invariant, and after `n` frames the clock has
      advanced by exactly `n` hundredths. */
  lemma {:induction false} FramesKeepValid(s: Scene, n: nat)
    requires Valid(s)
    ensures Valid(Frames(s, n))
    ensures Frames(s, n).width == s.width && Frames(s, n).height == s.height
    ensures Frames(s, n).time == s.time + n as real * Tick
  {
    if n > 0 {
      FramesKeepValid(s, n - 1);
    }
  }

  /** Frames act on every particle independently: `n` frames leave the canvas
      and the grid alone and put in every slot exactly what `n` glides make of
      the particle that started there. */
  lemma {:induction false} FramesTickEachEntity(s: Scene, n: nat)
    ensures var t := Frames(s, n);
      && t.width == s.width && t.height == s.height && t.grid == s.grid
      && |t.particles| == |s.particles|
      && (forall k :: 0 <= k < |t.particles| ==>
            t.particles[k] == Glides(s.particles[k], n, s.width, s.height, PulseStep))
  {
    if n > 0 {
      FramesTickEachEntity(s, n - 1);
      var u := Frames(s, n - 1);
      var t := Frame(u);
      forall k | 0 <= k < |t.particles|
        ensures t.particles[k] == Glides(s.particles[k], n, s.width, s.height, PulseStep)
      {
        assert t.particles[k] == Glide(u.particles[k], u.width, u.height, PulseStep);
      }
    }
  }


  /** In a valid scene every grid line is stroked with opacity in
      [0.0064, 0.08], whatever the clock reads. */
  lemma GridOpacities(s: Scene, time: real, sin: Wave)
    requires Valid(s)
    ensures forall k :: 0 <= k < |s.grid| ==> 0.0064 <= LineOpacity(s.grid[k], time, sin) <= 0.08
  {
  }

  /** In a valid scene every particle is drawn with opacity in [0.12, 1.2):
      never above its base opacity, which may itself exceed 1. */
  lemma ParticleOpacities(s: Scene, sin: Wave)
    requires Valid(s)
    ensures forall k :: 0 <= k < |s.particles| ==>
      0.12 <= PulseOpacity(s.particles[k], sin) <= s.particles[k].alpha < 1.2
  {
    forall k | 0 <= k < |s.particles|
      ensures 0.12 <= PulseOpacity(s.particles[k], sin)
    {
      var p := s.particles[k];
      assert p.alpha * 0.4 >= 0.12;
    }
  }

  /** From a resize on, however many frames follow, the grid opacities stay
      in [0.0064, 0.08] and particle opacities in [0.12, 1.2). */
  lemma OpacitiesAfterFrames(s: Scene, width: nat, height: nat, sqrt: real -> real, rand: Random, n: nat, sin: Wave)
    requires NonNegativeRoot(sqrt)
    ensures var t := Frames(Resize(s, width, height, sqrt, rand), n);
      && (forall k :: 0 <= k < |t.grid| ==> 0.0064 <= LineOpacity(t.grid[k], t.time, sin) <= 0.08)
      && (forall k :: 0 <= k < |t.particles| ==> 0.12 <= PulseOpacity(t.particles[k], sin) < 1.2)
  {
    var r := Resize(s, width, height, sqrt, rand);
    FramesKeepValid(r, n);
    var t := Frames(r, n);
    GridOpacities(t, t.time, sin);
    ParticleOpacities(t, sin);
  }
}

=== FILE: typewriter.dfy ===
/** The typewriter headline of the hero section: it types a word one
    character at a time, pauses, deletes it one character at a time, and moves
    on to the next word of a fixed list, forever. Each effect run of the
    component schedules at most one transition; the delays between them are
    not modelled, only the transition relation. */
module Typewriter {

  /** The words the headline cycles through. */
  const Words: seq<string> := ["Taposi", "Graphic Designer", "2D Animator", "3D Animator"]

  /** A position in the word list; the source only ever stores an index
      reduced modulo the list's length. */
  type WordIndex = i: nat | i < 4

  /** The component state the effect reads and writes. */
  datatype State = State(typedText: string, currentWordIndex: WordIndex, isDeleting: bool)

  /** The state the component mounts with. */
  const Initial: State := State("", 0, false)

  /** The word the headline is currently typing or deleting. */
  function Word(s: State): string {
    Words[s.currentWordIndex]
  }

  /** `word.slice(0, k)` for a non-negative `k`: the first `k` characters, or
      the whole word when `k` runs past its end. */
  function Slice(word: string, k: nat): (p: string)
    ensures p <= word
    ensures |p| == if k <= |word| then k else |word|
  {
    if k <= |word| then word[..k] else word
  }

  // The four guards of the effect, in the order the source tests them.

  predicate Typing(s: State)
  {
    !s.isDeleting && |s.typedText| < |Word(s)|
  }

  predicate Pausing(s: State)
  {
    !s.isDeleting && |s.typedText| == |Word(s)|
  }

  predicate Deleting(s: State)
  {
    s.isDeleting && |s.typedText| > 0
  }

  predicate Advancing(s: State)
  {
    s.isDeleting && |s.typedText| == 0
  }

  /** The invariant the headline keeps: the typed text is a prefix of the
      current word. */
  predicate Inv(s: State) {
    s.typedText <= Word(s)
  }

  /** One transition of the effect. Typing re-slices the word one character
      longer; the pause only raises the deleting flag; deleting re-slices it one
      character shorter; on an empty text the flag drops and the index moves to
      the next word, wrapping after the last. When no guard holds (not
      deleting, text longer than the word) nothing is scheduled and the state
      stays as it is. */
  function Step(s: State): (t: State)
    ensures Typing(s) ==>
      && t.currentWordIndex == s.currentWordIndex && !t.isDeleting
      && |t.typedText| == |s.typedText| + 1 && t.typedText <= Word(s)
    ensures Pausing(s) ==> t.isDeleting && t.typedText == s.typedText && t.currentWordIndex == s.currentWordIndex
    ensures Deleting(s) && Inv(s) ==>
      && t.currentWordIndex == s.currentWordIndex && t.isDeleting
      && |t.typedText| == |s.typedText| - 1 && t.typedText <= s.typedText
    ensures Advancing(s) ==> t == State("", (s.currentWordIndex + 1) % |Words|, false)
    ensures !Typing(s) && !Pausing(s) && !Deleting(s) && !Advancing(s) ==> t == s
    ensures Inv(s) ==> Inv(t)
  {
    var word := Word(s);
    var n := |s.typedText|;
    if !s.isDeleting && n < |word| then
      s.(typedText := Slice(word, n + 1))
    else if !s.isDeleting && n == |word| then
      s.(isDeleting := true)
    else if s.isDeleting && n > 0 then
      s.(typedText := Slice(word, n - 1))
    else if s.isDeleting && n == 0 then
      s.(isDeleting := false, currentWordIndex := (s.currentWordIndex + 1) % |Words|)
    else
      s
  }

  /** In every state that keeps the invariant exactly one of the four guards
      holds, so the headline never stalls; the stalled case needs a text
      longer than its word. */
  lemma ExactlyOneGuard(s: State)
    requires Inv(s)
    ensures (if Typing(s) then 1 else 0) + (if Pausing(s) then 1 else 0)
          + (if Deleting(s) then 1 else 0) + (if Advancing(s) then 1 else 0) == 1
  {
    assert |s.typedText| <= |Word(s)| by {
      assert s.typedText == Word(s)[..|s.typedText|];
    }
  }

  /** `n` applications of `f` in a row. */
  function Iterate<T>(f: T -> T, x: T, n: nat): T {
    if n == 0 then x else f(Iterate(f, x, n - 1))
  }

  /** Iterating `a` times and then `b` more is iterating `a + b` times. */
  lemma {:induction false} IterateAdd<T>(f: T -> T, x: T, a: nat, b: nat)
    ensures Iterate(f, Iterate(f, x, a), b) == Iterate(f, x, a + b)
  {
    if b > 0 {
      IterateAdd(f, x, a, b - 1);
    }
  }

  /** `n` transitions in a row. */
  function Steps(s: State, n: nat): State {
    Iterate(Step, s, n)
  }

  /** Every state reached from the initial one keeps the invariant. */
  lemma {:induction false} ReachableInv(n: nat)
    ensures Inv(Steps(Initial, n))
  {
    if n > 0 {
      ReachableInv(n - 1);
    }
  }

  /** In every state the headline reaches from mount, exactly one branch of
      the effect applies. */
  lemma ReachableOneGuard(n: nat)
    ensures var s := Steps(Initial, n);
      (if Typing(s) then 1 else 0) + (if Pausing(s) then 1 else 0)
      + (if Deleting(s) then 1 else 0) + (if Advancing(s) then 1 else 0) == 1
  {
    ReachableInv(n);
    ExactlyOneGuard(Steps(Initial, n));
  }

  /** Running `a` transitions and then `b` more is running `a + b`. */
  lemma StepsAdd(s: State, a: nat, b: nat)
    ensures Steps(Steps(s, a), b) == Steps(s, a + b)
  {
    IterateAdd(Step, s, a, b);
  }

  /** Typing: from an empty headline, `k` transitions type the first `k`
      characters of the word. */
  lemma {:induction false} TypingPhase(i: WordIndex, k: nat)
    requires k <= |Words[i]|
    ensures Steps(State("", i, false), k) == State(Words[i][..k], i, false)
  {
    if k > 0 {
      TypingPhase(i, k - 1);
    }
  }

  /** Deleting: from the full word with the flag raised, `k` transitions
      delete its last `k` characters. */
  lemma {:induction false} DeletingPhase(i: WordIndex, k: nat)
    requires k <= |Words[i]|
    ensures Steps(State(Words[i], i, true), k) == State(Words[i][..|Words[i]| - k], i, true)
  {
    if k > 0 {
      DeletingPhase(i, k - 1);
    }
  }

  /** How many transitions one word takes: type it, pause, delete it, advance. */
  function CycleLength(i: WordIndex): nat
  {
    2 * |Words[i]| + 2
  }

  /** Typing and the pause: `|word| + 1` transitions from an empty headline
      leave the full word on screen with the deleting flag raised. */
  lemma Typed(i: WordIndex)
    ensures Steps(State("", i, false), |Words[i]| + 1) == State(Words[i], i, true)
  {
    TypingPhase(i, |Words[i]|);
    assert Words[i][..|Words[i]|] == Words[i];
  }

  /** From an empty headline on word `i`, the word is typed, paused on,
      deleted and left behind in exactly `2 * |word| + 2` transitions. */
  lemma WordCycle(i: WordIndex)
    ensures Steps(State("", i, false), CycleLength(i)) == State("", (i + 1) % |Words|, false)
  {
    var start, w := State("", i, false), Words[i];
    var typed, deleted := State(w, i, true), State("", i, true);
    Typed(i);
    DeletingPhase(i, |w|);
    assert w[..|w| - |w|] == "";
    StepsAdd(start, |w| + 1, |w|);
    assert Steps(start, 2 * |w| + 1) == deleted;
    assert Steps(start, 2 * |w| + 2) == Step(deleted);
  }

  /** Until the last transition of its cycle the headline stays on word `i`. */
  lemma StaysOnWord(i: WordIndex, k: nat)
    requires k < CycleLength(i)
    ensures Steps(State("", i, false), k).currentWordIndex == i
  {
    var start, w := State("", i, false), Words[i];
    if k <= |w| {
      TypingPhase(i, k);
    } else {
      var rest: nat := k - |w| - 1;
      Typed(i);
      DeletingPhase(i, rest);
      StepsAdd(start, |w| + 1, rest);
      assert Steps(start, k) == State(w[..|w| - rest], i, true);
    }
  }

  /** The word after word `i`, wrapping after the last: `(i + 1) % 4`. */
  function Next(i: WordIndex): (j: WordIndex)
    ensures j == (i + 1) % |Words|
  {
    if i + 1 == |Words| then 0 else i + 1
  }

  /** The word `t` places after word `i` in the list, wrapping around. */
  function After(i: WordIndex, t: nat): WordIndex {
    if t == 0 then i else Next(After(i, t - 1))
  }

  /** Moving on four times comes back to the same word. */
  lemma FullTurn(i: WordIndex)
    ensures After(i, |Words|) == i
  {
    assert After(i, 1) == Next(i);
    assert After(i, 3) == Next(Next(Next(i)));
  }

  /** The sum of `len(0)`, ..., `len(m - 1)`. */
  function Total(len: nat -> nat, m: nat): nat {
    if m == 0 then 0 else Total(len, m - 1) + len(m - 1)
  }

  /** If `len(t)` applications of `f` always lead from `start(t)` to
      `start(t + 1)`, then `Total(len, m)` of them lead from `start(0)` to
      `start(m)`. */
  lemma {:induction false} Chain<T>(f: T -> T, start: nat -> T, len: nat -> nat, m: nat)
    requires forall t: nat :: Iterate(f, start(t), len(t)) == start(t + 1)
    ensures Iterate(f, start(0), Total(len, m)) == start(m)
  {
    if m > 0 {
      Chain(f, start, len, m - 1);
      IterateAdd(f, start(0), Total(len, m - 1), len(m - 1));
    }
  }

  /** The empty headline at the start of each word, from word `i` on. */
  function WordStarts(i: WordIndex): nat -> State {
    (t: nat) => State("", After(i, t), false)
  }

  /** The transitions each word takes, from word `i` on. */
  function WordLengths(i: WordIndex): nat -> nat {
    (t: nat) => CycleLength(After(i, t))
  }

  /** Working through the whole list takes 96 transitions, whichever word
      it starts with. */
  lemma RoundLength(i: WordIndex)
    ensures Total(WordLengths(i), |Words|) == 96
  {
    var len := WordLengths(i);
    assert Total(len, |Words|) == len(0) + len(1) + len(2) + len(3);
    assert |Words[0]| == 6 && |Words[1]| == 16 && |Words[2]| == 11 && |Words[3]| == 11;
  }

  /** The headline is periodic: from the start of any word, it is in the same
      state 96 transitions later, and so at every later point. */
  lemma Periodic(i: WordIndex, n: nat)
    ensures Steps(State("", i, false), n + 96) == Steps(State("", i, false), n)
  {
    var start, len := WordStarts(i), WordLengths(i);
    forall t: nat ensures Iterate(Step, start(t), len(t)) == start(t + 1) {
      WordCycle(After(i, t));
    }
    Chain(Step, start, len, |Words|);
    RoundLength(i);
    FullTurn(i);
    StepsAdd(State("", i, false), 96, n);
  }
}
